=== FILE: README.md ===
# Fixed-dimension algebra library, modelled in Dafny

This project models the exact-arithmetic core of a small C++ template
library. The core has four parts:

- **Vectors** (`Vector::Template<T, size>`) with element-wise arithmetic, the
  dot product, the 3-D cross product and an orthogonality test.
- **Matrices** (`Matrix::Template<T, rows, columns>`), built from rows of
  vectors, with:
  - the row-list and scalar (checkerboard) constructors
  - `Row`/`Column` copies and the minor `Reduced`
  - `+`, `-`, scalar `*` and matrix-times-vector
  - `Trace`, `Transpose`, `Identity` and `Zero`
  - the recursive Laplace `Determinant`
  - the product `Transform`
  - the adjugate `Inverse`, with its singular-matrix error
- **The scalar layer** (`Math/Prefix.h`, `Source/Prefix.cc`):
  - the kind tests `IsSigned` and `IsFloatingPoint`
  - `Epsilon`, `Equals` and `AutoCorrect`
  - `Abs`, `Max` and `Min`
  - the integer branch of `Pow`
  - `DoubleFactorial`
  - the compiled helpers `Factorial`, `Choose` and `Fibonacci`
- **Complex numbers** (`Complex::Template<T>`) with conjugate, equality and
  the ring operations.

The templates are instantiated at the element kind `int`, a signed integral
kind. For that kind:

- `Epsilon` is 0.
- `Equals` is exact equality.
- `AutoCorrect` returns its argument.

So every tolerance snap in the matrix layer has no effect, and each algorithm
can be stated exactly. The scalar layer keeps the kind as a parameter (`Scalar.Kind`: the eight
types its `is_same` tests name, plus `signed char` and the unsigned
counterpart of each integral kind), so the floating and unsigned
branches of `Epsilon`, `Equals`, `AutoCorrect` and `DoubleFactorial` are
modelled too. Integer widths follow the MSVC data model (`long` is 32 bits),
the platform the library targets (it constructs `std::exception` from a
string).

Representation:

- A vector is a `seq<int>`.
- An R × C matrix is a `seq<seq<int>>` satisfying `Matrix.IsMatrix(M, R, C)`.
- A complex number is a datatype with fields `re` and `im`; the source's
  `Real()` and `Complex()` read those fields.
- The exceptions the library throws become `Failures.Result` values:
  - `SizeMismatch` from the row-list constructor
  - `NotInvertible` from `Inverse`
  - `FloatingFactorial` from `DoubleFactorial`
- So does the unsigned division by zero that C++ leaves undefined:
  `DivisionByZero` from `Choose` as written.

The value operators `+`, `-` and `*` copy their receiver, so they are pure
functions. The compound assignments of vectors are methods that rewrite the
receiver one index at a time, as the loops in the source do. The complex
compound assignments can read their argument after writing the receiver, so
they are modelled on a store (a sequence of objects addressed by index); that
makes aliasing (`z *= z`) expressible. Matrix `*=` takes its scalar by
reference and reads it once per row, so `M *= M[k][j]` sees the entry change
part-way; that call is modelled on its own (`Matrix.ScaleByEntryAsWritten`).

Modules:

- `failures.dfy`: errors and results.
- `scalar.dfy`: `Math/Prefix.h`.
- `combinatorics.dfy`: `Source/Prefix.cc`.
- `vector.dfy`: `Math/Algebra/Vector.h`.
- `matrix.dfy`: the matrix class and its shape-generic functions in
  `Math/Algebra/Matrix.h`.
- `determinants.dfy`: `Determinant` and `Inverse`.
- `complex.dfy`: `Math/Algebra/Complex.h`.

## Model

| member | source | states |
|---|---|---|
| `Scalar.Equals` | Math/Prefix.h:99-103 | defines `Equals`: a - b within Epsilon of 0 when the kind is exactly `float`, and exact equality for every other kind (its properties are the Equals lemmas below) |
| `Scalar.AutoCorrect` | Math/Prefix.h:105-116 | defines `AutoCorrect`: a floating value within Epsilon of its floor or ceiling snaps to it, then a value within Epsilon of 0 becomes 0 for signed and floating kinds |
| `Scalar.Quot` | Math/Algebra/Vector.h:79 | defines C++ `int` division: the quotient of the magnitudes, negated when exactly one operand is negative, so it truncates toward zero |
| `Scalar.Epsilon` | Math/Prefix.h:50-56 | the tolerance is never negative, and it is zero exactly for the non-floating kinds |
| `Scalar.EqualsExactUnlessFloat` | Math/Prefix.h:99-103 | for every kind except `float` (`double` included), `Equals` holds iff the values are identical |
| `Scalar.EqualsFloatTolerance` | Math/Prefix.h:101 | for `float`, `Equals` holds iff the difference lies within ±1e-15 |
| `Scalar.EqualsSymmetric` | Math/Prefix.h:99-103 | `Equals` does not depend on the order of its arguments |
| `Scalar.AutoCorrectIntegral` | Math/Prefix.h:105-116 | for every integral kind, AutoCorrect returns its argument unchanged |
| `Scalar.AutoCorrectNearby` | Math/Prefix.h:105-116 | for every kind, AutoCorrect moves a value by at most Epsilon, and returns either the value itself or a whole number |
| `Scalar.Abs` | Math/Prefix.h:90-91 | the result is non-negative and is either a or -a |
| `Scalar.AbsNegate` | Math/Prefix.h:90-91 | Abs(-a) == Abs(a) |
| `Scalar.Max` | Math/Prefix.h:93-94 | the result is at least both arguments and is one of them |
| `Scalar.Min` | Math/Prefix.h:96-97 | the result is at most both arguments and is one of them |
| `Scalar.PowerAdd` | Math/Prefix.h:70-72 | the reference power obeys x^(a+b) == x^a · x^b |
| `Scalar.Pow` | Math/Prefix.h:65-73 | the integer loop gives 1 for p <= 0 and x^p for p >= 0 (so Pow(x, p+1) == x · Pow(x, p)) |
| `Scalar.DoubleFactorial` | Math/Prefix.h:75-81 | the corrected countdown (exact, without wrap-around; see Findings) fails with FloatingFactorial iff the kind is floating and otherwise returns n!! (1 for every n <= 1, and n · (n-2)!! above); `Scalar.DoubleFactorialAsWritten` proves that the loop as written returns the same n!! for every unsigned n below the kind's maximum |
| `Scalar.DoubleFactorialAsWritten` | Math/Prefix.h:75-81 | the loop as written at an unsigned kind, with the wrapping `i -= 2` and the guard `i > 0 and i <= n`, returns n!! for every n below the kind's maximum |
| `Scalar.CountDownAgrees` | Math/Prefix.h:79 | for an unsigned n below the kind's maximum, each wrapping step `i -= 2` agrees with the exact countdown: the guard still holds exactly when i - 2 > 0, and then the new i is i - 2 |
| `Scalar.DoubleFactorialWrapCycles` | Math/Prefix.h:79 | for n equal to the maximum of an unsigned kind, the guard admits n, 1 - 2 wraps to n, and odd values in (0, n] stay odd and in range: the loop never exits |
| `Combinatorics.FactTwentyFits` | Source/Prefix.cc:5-10 | 20! is below 2^64 and 21! is not |
| `Combinatorics.Factorial` | Source/Prefix.cc:5-10 | the loop computes n! modulo 2^64, which is n! itself for n <= 20 |
| `Combinatorics.BinomAbove` | Source/Prefix.cc:13 | the binomial coefficient is 0 when p > n, the case the swap in Choose avoids |
| `Combinatorics.BinomFactorials` | Source/Prefix.cc:14 | Binom(n, p) · p! · (n-p)! == n! for p <= n |
| `Combinatorics.ChooseQuotient` | Source/Prefix.cc:14 | the denominator is positive and the factorial quotient is exactly Binom(n, p) |
| `Combinatorics.BinomEnds` | Source/Prefix.cc:12-15 | Binom(n, 0) == Binom(n, n) == 1 |
| `Combinatorics.BinomSymmetric` | Source/Prefix.cc:14 | Binom(n, p) == Binom(n, n-p) |
| `Combinatorics.BinomPositive` | Source/Prefix.cc:14 | Binom(n, p) >= 1 for p <= n |
| `Combinatorics.WrappedDivisorExact` | Source/Prefix.cc:14 | for p <= n <= 20 nothing wraps: the divisor is exactly p! · (n-p)!, it is positive, and n! is unchanged |
| `Combinatorics.ChooseAsWritten` | Source/Prefix.cc:12-15 | for 32-bit arguments, swapped once when n < p: fails with DivisionByZero iff p! · (n-p)! wraps to 0 modulo 2^64, and otherwise returns n! mod 2^64 divided by that divisor; for arguments up to 20 this is exactly Binom(n, p) (Binom(p, n) after the swap) |
| `Combinatorics.FactWraps` | Source/Prefix.cc:5-10 | from 66 on, n! is a multiple of 2^64, so Factorial returns 0 |
| `Combinatorics.ChooseDividesByZero` | Source/Prefix.cc:14 | when p or n - p is at least 66 the wrapped divisor is 0, although Binom(n, p) is at least 1 |
| `Combinatorics.BinomStep` | Source/Prefix.cc:14 | C(n, k+1) · (k+1) == C(n, k) · (n-k) for k < n, so each step of the multiplicative formula divides exactly |
| `Combinatorics.Choose` | Source/Prefix.cc:12-15 | the corrected Choose returns Binom(n, p) for every p <= n, so times p! · (n-p)! it gives n!; for n < p the arguments are swapped once, giving Binom(p, n) |
| `Combinatorics.Fibonacci` | Source/Prefix.cc:17-24 | as written, the loop returns 0 for n == 0 and F(n+1) mod 2^64 for n >= 1, where F is the standard sequence |
| `Combinatorics.FibonacciStandard` | Source/Prefix.cc:17-24 | the same loop returning `a` yields F(n) mod 2^64 for every n |
| `Combinatorics.FibonacciAtTwo` | Source/Prefix.cc:17-24 | as written, Fibonacci(2) is 2 where F(2) is 1, and Fibonacci(2) != Fibonacci(1) + Fibonacci(0) |
| `Vector.Zero` | Math/Algebra/Vector.h:19-22 | defines the all-zero vector of a size, what the default constructor produces |
| `Vector.Add` | Math/Algebra/Vector.h:89-92 | defines `+`: a new vector whose entry i is v[i] + u[i]; the receiver is a value and stays as it was |
| `Vector.SubAsWritten` | Math/Algebra/Vector.h:94-97 | defines `-` as written: it copies the receiver and applies `-=`, which assigns, so entry i is u[i] |
| `Vector.Sub` | Math/Algebra/Vector.h:94-97 | defines the corrected `-`: entry i is v[i] - u[i] |
| `Vector.Scale` | Math/Algebra/Vector.h:99-102 | defines `*` by a scalar: entry i is v[i] · r |
| `Vector.Div` | Math/Algebra/Vector.h:104-107 | defines `/` by a nonzero scalar: entry i is v[i] / r, truncated toward zero |
| `Vector.Dot` | Math/Algebra/Vector.h:83-87 | defines the dot product Σ u[i] · v[i], the reference the accumulating loop is proved against |
| `Vector.Cross` | Math/Algebra/Vector.h:191-199 | defines the cross product by its three component formulas |
| `Vector.Construct` | Math/Algebra/Vector.h:19-22 | the default constructor leaves every one of the `size` elements 0 |
| `Vector.Equal` | Math/Algebra/Vector.h:51-55 | the early-exit loop returns true iff the vectors are equal element by element |
| `Vector.NotEqual` | Math/Algebra/Vector.h:57 | `!=` holds iff the vectors differ |
| `Vector.AddAssign` | Math/Algebra/Vector.h:63-66 | after `+=`, element i is v[i] + u[i], and the result is `v + u` |
| `Vector.AddCommutes` | Math/Algebra/Vector.h:89-92 | v + u == u + v |
| `Vector.SubAssignAsWritten` | Math/Algebra/Vector.h:68-71 | as written, `-=` leaves the receiver equal to the argument |
| `Vector.SubAsWrittenIsArgument` | Math/Algebra/Vector.h:94-97 | as written, v - u == u for all v, so v - v is v |
| `Vector.SubAsWrittenCounterexample` | Math/Algebra/Vector.h:68-71 | <1, 2> - <1, 2> as written is not zero, while the intended subtraction gives zero |
| `Vector.SubAssign` | Math/Algebra/Vector.h:68-71 | the corrected `-=` leaves element i equal to v[i] - u[i] |
| `Vector.SubUndoesAdd` | Math/Algebra/Vector.h:89-97 | (v + u) - u == v with the corrected subtraction |
| `Vector.SubSelfIsZero` | Math/Algebra/Vector.h:94-97 | v - v is the zero vector with the corrected subtraction |
| `Vector.ScaleAssign` | Math/Algebra/Vector.h:73-76 | after `*= r`, element i is v[i] · r, which is also what `* r` returns |
| `Vector.DivAssign` | Math/Algebra/Vector.h:78-81 | after `/= r`, element i is v[i] divided by r, truncated toward zero as C++ does |
| `Vector.DivUndoesScale` | Math/Algebra/Vector.h:99-107 | (v * r) / r == v for r != 0 |
| `Vector.DotProduct` | Math/Algebra/Vector.h:83-87 | the accumulating loop returns the sum of the element-wise products (`Dot` returns the same value, Math/Algebra/Vector.h:205) |
| `Vector.DotSymmetric` | Math/Algebra/Vector.h:83-87 | u · v == v · u |
| `Vector.DotSelfNonNegative` | Math/Algebra/Vector.h:83-87 | u · u >= 0 |
| `Vector.DotUnit` | Math/Algebra/Vector.h:83-87 | dotting with the i-th unit vector picks out element i |
| `Vector.Dot2` | Math/Algebra/Vector.h:83-87 | for two elements, the sum is u0·v0 + u1·v1 |
| `Vector.Dot3` | Math/Algebra/Vector.h:83-87 | for three elements, the sum is u0·v0 + u1·v1 + u2·v2 |
| `Vector.CrossBasis` | Math/Algebra/Vector.h:191-199 | (1,0,0) × (0,1,0) == (0,0,1) |
| `Vector.CrossAntiCommutes` | Math/Algebra/Vector.h:191-199 | B × A == -(A × B) |
| `Vector.CrossOrthogonal` | Math/Algebra/Vector.h:191-199 | A × B is orthogonal to both A and B |
| `Vector.IsOrtho` | Math/Algebra/Vector.h:202 | for the integer element kind, the test holds iff the dot product is 0 |
| `Matrix.Fill` | Math/Algebra/Matrix.h:24-29 | defines the scalar constructor, u defaulting to 1: entry (i, j) is 0 when i + j is odd and u otherwise |
| `Matrix.Zero` | Math/Algebra/Matrix.h:331 | defines `Zero()` as the scalar constructor at 0 |
| `Matrix.Identity` | Math/Algebra/Matrix.h:323-328 | defines the identity: 1 where i == j and 0 elsewhere |
| `Matrix.Row` | Math/Algebra/Matrix.h:44-49 | defines `Row(r)`: row r as a value, so the matrix is not changed |
| `Matrix.Column` | Math/Algebra/Matrix.h:51-56 | defines `Column(c)`: the vector of M[i][c] over every row i |
| `Matrix.Transpose` | Math/Algebra/Matrix.h:299-308 | defines the transpose: C rows, where row j holds M[i][j] for every i |
| `Matrix.Reduced` | Math/Algebra/Matrix.h:58-69 | the minor has one row fewer than M, and each of its rows is one entry shorter than the row of M it comes from |
| `Matrix.Add` | Math/Algebra/Matrix.h:103-106 | defines `+`: a copy plus `+=` row by row through the vector sum |
| `Matrix.SubAsWritten` | Math/Algebra/Matrix.h:108-111 | defines `-` as written: a copy whose rows go through the vector `-=` as written |
| `Matrix.Sub` | Math/Algebra/Matrix.h:108-111 | defines the corrected `-`: row i is A[i] - B[i] |
| `Matrix.Scale` | Math/Algebra/Matrix.h:113-116 | defines `*` by a scalar: every row is scaled by r |
| `Matrix.Apply` | Math/Algebra/Matrix.h:97-101 | defines matrix times vector: entry i is row i dotted with u |
| `Matrix.Trace` | Math/Algebra/Matrix.h:275-280 | defines the trace as the sum of the diagonal entries M[0][0] … M[N-1][N-1] |
| `Matrix.Transform` | Math/Algebra/Matrix.h:310-321 | defines the product: entry (i, j) is row i of A dotted with row j of the transpose of B |
| `Matrix.FromRows` | Math/Algebra/Matrix.h:16-22 | fails with SizeMismatch iff the list length differs from `rows`; otherwise row i is the i-th list element |
| `Matrix.FillCheckerboard` | Math/Algebra/Matrix.h:24-29 | the scalar constructor puts u where i + j is even (the whole diagonal included) and 0 where it is odd |
| `Matrix.ZeroIsAllZero` | Math/Algebra/Matrix.h:330-331 | `Zero()` has every entry 0 |
| `Matrix.RowColumnEntries` | Math/Algebra/Matrix.h:44-56 | Row(r) is a copy equal to row r, of length C; Column(c)[i] == M[i][c], of length R; column c is row c of the transpose |
| `Matrix.TransposeShape` | Math/Algebra/Matrix.h:299-308 | the transpose of an R × C matrix is C × R, with entry (j, i) equal to M[i][j] |
| `Matrix.TransposeInvolution` | Math/Algebra/Matrix.h:299-308 | transposing twice returns the matrix |
| `Matrix.TransposeIdentity` | Math/Algebra/Matrix.h:323-328 | the identity equals its own transpose |
| `Matrix.ReducedEntry` | Math/Algebra/Matrix.h:58-69 | the minor is (R-1) × (C-1), and entry (i, j) is the entry of M whose row skips r and whose column skips c |
| `Matrix.ReducedAsWritten` | Math/Algebra/Matrix.h:58-69 | the loop as written, with `s` never advancing and `t` never reset, fills (R-1)·(C-1) consecutive slots with exactly the row-major listing of the minor; this reads the minor's rows as one contiguous block of storage (`Matrix.FlattenEntry`), although `reduced[s][t++]` with t >= C-1 indexes past the end of row 0, which C++ leaves undefined |
| `Matrix.FlattenEntry` | Math/Algebra/Matrix.h:119 | in contiguous row storage, entry (i, j) sits at offset i·C + j, which is why those consecutive slots are the minor's rows |
| `Matrix.AddEntries` | Math/Algebra/Matrix.h:82-85 | adding row by row adds entry by entry, and matrix addition commutes |
| `Matrix.SubAsWrittenIsArgument` | Math/Algebra/Matrix.h:87-90 | as written, the row-wise vector `-=` makes A - B equal B |
| `Matrix.SubUndoesAdd` | Math/Algebra/Matrix.h:108-111 | (A + B) - B == A with the corrected subtraction |
| `Matrix.SubSelfIsZero` | Math/Algebra/Matrix.h:108-111 | A - A is Zero() with the corrected subtraction |
| `Matrix.ScaleEntries` | Math/Algebra/Matrix.h:92-95 | scaling row by row with a scalar that does not change (as in `*`, and in `*=` by any scalar that is not an entry of the receiver) multiplies every entry by r |
| `Matrix.ScaleByEntryAsWritten` | Math/Algebra/Matrix.h:92-95 | `M *= M[k][j]` as written scales rows 0..k by a = M[k][j] and every later row by a · a, because row k's update changes the referenced entry |
| `Matrix.ScaleByEntryCounterexample` | Math/Algebra/Matrix.h:92-95 | for [[-1, 0], [0, 1]], `M *= M[0][0]` as written gives [[1, 0], [0, 1]], while scaling by -1 gives [[1, 0], [0, -1]] |
| `Matrix.ApplyIdentity` | Math/Algebra/Matrix.h:97-101 | the identity times u is u, each element being row i dotted with u |
| `Matrix.TraceTranspose` | Math/Algebra/Matrix.h:275-280 | Trace(Transpose(M)) == Trace(M) |
| `Matrix.TraceIdentity` | Math/Algebra/Matrix.h:275-280 | Trace(Identity<N>) == N |
| `Matrix.TransformEntry` | Math/Algebra/Matrix.h:310-321 | the product is R × C, and entry (i, j) is row i of A dotted with column j of B |
| `Matrix.TransformIdentityLeft` | Math/Algebra/Matrix.h:310-321 | Identity · B == B |
| `Matrix.TransformIdentityRight` | Math/Algebra/Matrix.h:310-321 | A · Identity == A |
| `Matrix.TransposeOfTransform` | Math/Algebra/Matrix.h:310-321 | (A B)^T == B^T A^T |
| `Determinants.Determinant` | Math/Algebra/Matrix.h:282-297 | defines the determinant: 0 for 0 × 0, the entry for 1 × 1, and otherwise the row-0 expansion, replaced by 0 when its magnitude is at most Epsilon |
| `Determinants.Laplace` | Math/Algebra/Matrix.h:290-295 | defines the first n terms of Σ (-1)^i · M[0][i] · det(Reduced(0, i)), the loop of `Determinant` |
| `Determinants.Cofactor` | Math/Algebra/Matrix.h:345-347 | defines the signed minor (-1)^(i+j) · det(Reduced(i, j)), the numerator of an inverse entry |
| `Determinants.DeterminantThreeByThree` | Math/Algebra/Matrix.h:282-297 | a 3 × 3 determinant is a(ei - fh) - b(di - fg) + c(dh - eg) |
| `Determinants.DeterminantTranspose` | Math/Algebra/Matrix.h:282-308 | for every size up to 3, the transpose is square and has the same determinant as M |
| `Determinants.DeterminantIsLaplace` | Math/Algebra/Matrix.h:296 | for N >= 2 the Epsilon snap never changes an integer determinant, so it is the row-0 expansion |
| `Determinants.DeterminantOneByOne` | Math/Algebra/Matrix.h:284-286 | a 1 × 1 determinant is its single entry |
| `Determinants.DeterminantTwoByTwo` | Math/Algebra/Matrix.h:282-297 | the determinant of [[a, b], [c, d]] is ad - bc |
| `Determinants.DeterminantZeroRow` | Math/Algebra/Matrix.h:282-297 | a matrix with an all-zero row has determinant 0, whichever row it is |
| `Determinants.DeterminantIdentity` | Math/Algebra/Matrix.h:282-297 | the identity has determinant 1 for N >= 1; for N == 0 the source returns 0 |
| `Determinants.Inverse` | Math/Algebra/Matrix.h:333-354 | fails with NotInvertible iff the determinant is 0; otherwise the result is square of the same size |
| `Determinants.InverseEntries` | Math/Algebra/Matrix.h:333-354 | on a non-singular matrix the inverse succeeds; 1 × 1 gives [[1 / m]]; larger gives result[j][i] == (-1)^(i+j) · det(Reduced(i, j)) / det, each quotient truncated |
| `Determinants.InverseExactEntries` | Math/Algebra/Matrix.h:347 | where det divides a cofactor, the inverse entry times det gives that cofactor back |
| `Determinants.InverseOfZeroFails` | Math/Algebra/Matrix.h:338 | inverting `Zero()` fails with NotInvertible, at every size |
| `Determinants.InverseTwoByTwo` | Math/Algebra/Matrix.h:333-354 | the 2 × 2 inverse is [[d, -b], [-c, a]] divided entry-wise by ad - bc |
| `Determinants.InverseTwoByTwoExample` | Math/Algebra/Matrix.h:333-354 | [[1, 2], [3, 4]] has determinant -2 and integer inverse [[-2, 1], [1, 0]] |
| `Determinants.InverseTwoByTwoUnimodular` | Math/Algebra/Matrix.h:333-354 | when a 2 × 2 determinant is 1 or -1, M · Inverse(M) is the identity |
| `Determinants.InverseTruncationCounterexample` | Math/Algebra/Matrix.h:347 | for [[1, 2], [3, 4]], M · Inverse(M) is [[0, 1], [-2, 3]], not the identity, because the quotients truncate |
| `Determinants.InverseIdentity` | Math/Algebra/Matrix.h:333-354 | the identity is its own inverse for N >= 1; at N == 0 inverting fails, because the determinant is 0 there |
| `ComplexNumbers.Make` | Math/Algebra/Complex.h:13-16 | defines the constructor: (x, y), each defaulting to 0 |
| `ComplexNumbers.Conjugate` | Math/Algebra/Complex.h:21 | defines the conjugate (re, -im) |
| `ComplexNumbers.Add` | Math/Algebra/Complex.h:63-66 | defines `+`: the component-wise sum, returned as a value |
| `ComplexNumbers.Sub` | Math/Algebra/Complex.h:68-71 | defines `-`: the component-wise difference, returned as a value |
| `ComplexNumbers.Mul` | Math/Algebra/Complex.h:73-76 | defines `*`: (ac - bd, bc + ad), computed on a copy of the receiver, so the argument is never overwritten |
| `ComplexNumbers.ConstructorDefaults` | Math/Algebra/Complex.h:13-20 | the constructor stores (x, y), each defaulting to 0, and `Real()`/`Complex()` read them back |
| `ComplexNumbers.ConjugateInvolution` | Math/Algebra/Complex.h:21 | the conjugate negates only the imaginary part, and conjugating twice is the identity |
| `ComplexNumbers.ConjugateOfMul` | Math/Algebra/Complex.h:21 | conjugation distributes over products and sums |
| `ComplexNumbers.Equal` | Math/Algebra/Complex.h:31-34 | `==` holds iff both components agree |
| `ComplexNumbers.NotEqual` | Math/Algebra/Complex.h:36 | `!=` holds iff the values differ |
| `ComplexNumbers.AddCommutes` | Math/Algebra/Complex.h:63-66 | z + w == w + z |
| `ComplexNumbers.SubUndoesAdd` | Math/Algebra/Complex.h:63-71 | (z + w) - w == z |
| `ComplexNumbers.SubSelfIsZero` | Math/Algebra/Complex.h:68-71 | z - z == (0, 0) |
| `ComplexNumbers.MulCommutes` | Math/Algebra/Complex.h:73-76 | z · w == w · z |
| `ComplexNumbers.MulOne` | Math/Algebra/Complex.h:73-76 | (1, 0) is a two-sided unit of multiplication |
| `ComplexNumbers.MulAssociative` | Math/Algebra/Complex.h:73-76 | multiplication is associative |
| `ComplexNumbers.MulDistributes` | Math/Algebra/Complex.h:63-76 | multiplication distributes over addition |
| `ComplexNumbers.MulConjugate` | Math/Algebra/Complex.h:56-61 | z · conj(z) == (re² + im², 0), and its real part is non-negative |
| `ComplexNumbers.AddAssign` | Math/Algebra/Complex.h:44-48 | `+=` stores receiver + argument in the receiver and leaves every other object alone, even when the argument is the receiver |
| `ComplexNumbers.SubAssign` | Math/Algebra/Complex.h:50-54 | `-=` stores receiver - argument in the receiver and leaves every other object alone, even when the argument is the receiver |
| `ComplexNumbers.CompoundAddSub` | Math/Algebra/Complex.h:44-54 | `z -= z` leaves (0, 0), and `(z += w) -= w` restores the store |
| `ComplexNumbers.MulAssignAsWritten` | Math/Algebra/Complex.h:56-61 | as written, `*=` changes only the receiver, and stores the product when the argument is a different object |
| `ComplexNumbers.MulAssignAliasedCounterexample` | Math/Algebra/Complex.h:56-61 | as written, (1 + i) *= itself stores i, while (1 + i)² is 2i |
| `ComplexNumbers.MulAssign` | Math/Algebra/Complex.h:56-61 | the corrected `*=` (which copies the argument too) stores the product in the receiver, aliased or not, and leaves the rest alone |
| `ComplexNumbers.MulAssignAgreesUnaliased` | Math/Algebra/Complex.h:56-61 | without aliasing, the two versions of `*=` agree |

## Left out

- Floating-point and libm code is not modelled, because it is floating-point numerics over foreign C math calls. This covers:
  - the trigonometric and inverse-trigonometric functions, `Euler`, `Log`, `DegsToRads`/`RadsToDegs`, `Pi` and `Infinity`
  - the `std::pow` branches of `Pow`
  - the `Rotate` builders
  - `GetLength`/`GetAngle`
  - `Complex::Magnitude`
- The floating branches of `Equals` and `AutoCorrect` are modelled over exact reals, with `floor`/`ceil` as real floor and ceiling, not IEEE arithmetic.
- Scalar.Epsilon: gives exactly 1e-15 for all three floating kinds; the rounding of the literal to `float` or `double` is not modelled.
- `ToString` of vectors, matrices and complex numbers is not modelled. It depends on `std::to_string` formatting and on `Stringz::Strip`. Stringz/Utility.h is not part of this model.
- The stubbed specializations are not modelled: the R × 1 and 1 × C matrices and the size-0 vector. The model gives every shape the general behaviour.
- Matrix.Reduced: on a 1 × 1 matrix it returns the empty minor, where the 1 × 1 specialization's `Reduced` returns [[0]]. `Determinant` and `Inverse` never take a minor of a 1 × 1 matrix, so nothing else depends on this.
- `Vector::IsZero` is not modelled. It compares the element array itself with a scalar, which is ill-formed.
- These are representation detail with no behaviour beyond sequence indexing and copying, so they are not modelled:
  - `operator&`
  - `operator[]` and `operator=`
  - `GetSize`, `Rows`, `Columns` and `HasDeterminant` (the last is `IsSquare` in the model)
  - the typedefs
- The initializer-list vector constructor does not check the list length, so it is not modelled. A vector is a sequence of the right length from the start.
- Math/Geometry/Point.h is not part of this model. It is an unfinished consumer of the core.
- The references to dead locals that the complex `+`, `-` and `*` return are not modelled; those operators are value-returning functions here.
- Element arithmetic of the vector, matrix and complex operations, of `Pow` and of the `DoubleFactorial` product is unbounded. Wrap-around of the element kind is not modelled. Only `Factorial`, `Choose` as written and `Fibonacci` reduce modulo 2^64, as their `uint64_t` results do.
- Combinatorics.ChooseAsWritten: states the binomial coefficient only for arguments up to 20. Above that the factorials wrap modulo 2^64, and the quotient is whatever the wrapped values give.
- Combinatorics.Choose: the corrected version computes in unbounded integers. A `uint64_t` multiplicative formula could still overflow in the product before each division when C(n, p) is close to 2^64; that is not modelled.
- Determinants.DeterminantTranspose: transpose invariance of `Determinants.Determinant` is proved only for sizes up to 3. At larger sizes it needs the row-0 and column-0 expansions to agree, which is not proved.
- Vector.Div, Vector.DivAssign, Vector.DivUndoesScale and Scalar.Quot require a nonzero divisor. Vector `/` and `/=` by 0 divide without a guard, which is undefined for `int` in C++, so that case is excluded rather than modelled as an error.
- Determinants.Inverse: is the `int` instantiation, where both divisions truncate toward zero. A floating instantiation would give exact fractions up to rounding, such as [[-2, 1], [1.5, -0.5]] for [[1, 2], [3, 4]]. So the inverse law M · Inverse(M) == I is proved only where nothing truncates: `Determinants.InverseTwoByTwoUnimodular` proves it for 2 × 2 matrices with determinant ±1.
- `AutoCorrect` in `Transform` and `Inverse` is left out of those definitions, because it returns its argument for `int` (`Scalar.AutoCorrectIntegral`).

## Findings

| source | as written | input that shows it | evidently intended | confidence | as-written member | corrected member |
|---|---|---|---|---|---|---|
| Math/Algebra/Vector.h:68-71 | `-=` assigns `e[i] = u[i]` | <1, 2> -= <1, 2> leaves <1, 2> | `e[i] -= u[i]`, so v - v is zero | high; not executed | `Vector.SubAsWrittenCounterexample` | `Vector.SubAssign` |
| Math/Algebra/Matrix.h:87-90 | matrix `-=` applies the vector `-=` to each row | A - A is A, for every A | row-wise subtraction, so A - A is Zero() | high; not executed | `Matrix.SubAsWrittenIsArgument` | `Matrix.SubSelfIsZero` |
| Source/Prefix.cc:17-24 | returns `fib`, which holds F(n+1) after a pass and 0 when none runs | Fibonacci(2) is 2, and Fibonacci(2) != Fibonacci(1) + Fibonacci(0) | return `a`, i.e. F(n) | medium; not executed | `Combinatorics.FibonacciAtTwo` | `Combinatorics.FibonacciStandard` |
| Math/Prefix.h:79 | unsigned countdown `i -= 2` guarded by `i > 0 and i <= n` | n = 255 at kind `uint8_t`: i runs 255, 253, …, 1, wraps to 255 | stop once i reaches 0 or 1 | high; not executed | `Scalar.DoubleFactorialWrapCycles` | `Scalar.DoubleFactorial` |
| Source/Prefix.cc:14 | divides the wrapped n! by the wrapped product p! · (n-p)! | Choose(66, 0): 66! has 64 factors 2, so the divisor 0! · 66! is 0 modulo 2^64 and the quotient divides by zero | C(66, 0) == 1, from a computation that never divides by a wrapped product, such as the multiplicative formula | medium; not executed | `Combinatorics.ChooseDividesByZero` | `Combinatorics.Choose` |
| Math/Algebra/Matrix.h:92-95 | `*=` takes the scalar by reference and reads it again for each row | M = [[-1, 0], [0, 1]]: `M *= M[0][0]` gives [[1, 0], [0, 1]] | scale every row by the value the scalar had on entry, giving [[1, 0], [0, -1]] | medium; not executed | `Matrix.ScaleByEntryCounterexample` | `Matrix.ScaleEntries` |
| Math/Algebra/Complex.h:56-61 | `*=` copies the receiver but reads the argument after storing the real part | z = 1 + i, `z *= z` gives i | copy the argument as well, giving 2i | high; not executed | `ComplexNumbers.MulAssignAliasedCounterexample` | `ComplexNumbers.MulAssign` |

=== FILE: combinatorics.dfy ===
/**
  The combinatorial helpers compiled into the library: Factorial, Choose and
  Fibonacci. Arguments and results are 64-bit unsigned in the source; the
  model keeps the wrap-around of the results explicit.
 */
module Combinatorics {
  import opened Failures
  import opened Scalar

  /** 2^64, the modulus of uint64_t arithmetic. */
  const U64: nat := 0x1_0000_0000_0000_0000

  /** 2^32, one past the largest uint32_t. */
  const U32: nat := 0x1_0000_0000

  /** n!, the reference for Factorial. */
  function Fact(n: nat): nat {
    if n == 0 then 1 else n * Fact(n - 1)
  }

  lemma {:induction false} FactPositive(n: nat)
    ensures Fact(n) >= 1
  {
    if n > 0 {
      FactPositive(n - 1);
    }
  }

  lemma {:induction false} FactMonotone(m: nat, n: nat)
    requires m <= n
    ensures Fact(m) <= Fact(n)
  {
    if m < n {
      FactMonotone(m, n - 1);
      MulAtLeast(n, Fact(n - 1));
    }
  }

  lemma MulAtLeast(k: nat, x: nat)
    requires k >= 1
    ensures k * x >= x
  {
  }

  /** 20! is the largest factorial a uint64_t holds; 21! already wraps. */
  lemma FactTwentyFits()
    ensures Fact(20) == 2432902008176640000 < U64
    ensures Fact(21) >= U64
  {
    assert Fact(20) == 2432902008176640000 by {
      assert Fact(5) == 120;
      assert Fact(10) == 3628800;
      assert Fact(15) == 1307674368000;
    }
  }

  /** Up to 20, n! fits in a uint64_t. */
  lemma FactFits(n: nat)
    requires n <= 20
    ensures Fact(n) < U64
  {
    FactTwentyFits();
    FactMonotone(n, 20);
  }

  lemma ModMultiple(x: nat, k: nat)
    ensures (k * U64 + x) % U64 == x % U64
  {
  }

  lemma ModMul(a: nat, b: nat)
    ensures (a % U64) * b % U64 == a * b % U64
  {
    var q := a / U64;
    var r := a % U64;
    assert a == q * U64 + r;
    assert a * b == (q * b) * U64 + r * b;
    ModMultiple(r * b, q * b);
  }

  lemma ModAdd(a: nat, b: nat)
    ensures (a % U64 + b % U64) % U64 == (a + b) % U64
  {
  }

  lemma MulAssoc(a: int, b: int, c: int)
    ensures a * b * c == a * (b * c)
  {
  }

  /** Factorial as written: multiply while counting n down; each product
      is reduced modulo 2^64. */
  method Factorial(n: nat) returns (r: nat)
    requires n < U64
    ensures r == Fact(n) % U64
    ensures n <= 20 ==> r == Fact(n)
  {
    if n == 0 {
      return 1;
    }
    var factorial: nat := 1;
    var k: nat := n;
    ghost var exact: nat := 1;
    while k > 0
      invariant k <= n
      invariant exact * Fact(k) == Fact(n)
      invariant factorial == exact % U64
    {
      ModMul(exact, k);
      MulAssoc(exact, k, Fact(k - 1));
      exact := exact * k;
      factorial := factorial * k % U64;
      k := k - 1;
    }
    r := factorial;
    if n <= 20 {
      FactFits(n);
    }
  }

  /** The binomial coefficient by Pascal's rule, the reference for Choose. */
  function Binom(n: nat, p: nat): nat {
    if p == 0 then 1
    else if n == 0 then 0
    else Binom(n - 1, p - 1) + Binom(n - 1, p)
  }

  lemma {:induction false} BinomAbove(n: nat, p: nat)
    requires p > n
    ensures Binom(n, p) == 0
  {
    if n > 0 {
      BinomAbove(n - 1, p - 1);
      BinomAbove(n - 1, p);
    }
  }

  lemma Pascal(a: int, b: int, p: int, q: int, X: int, Y: int, F: int)
    requires a * (X * (q * Y)) == F
    requires b * ((p * X) * Y) == F
    ensures (a + b) * ((p * X) * (q * Y)) == (p + q) * F
  {
    assert (a + b) * ((p * X) * (q * Y)) == p * (a * (X * (q * Y))) + q * (b * ((p * X) * Y));
  }

  /** Choose(n, p) * p! * (n - p)! == n!: the factorial quotient is exact. */
  lemma {:induction false} BinomFactorials(n: nat, p: nat)
    requires p <= n
    ensures Binom(n, p) * (Fact(p) * Fact(n - p)) == Fact(n)
  {
    if p == 0 {
    } else if p == n {
      BinomFactorials(n - 1, p - 1);
      BinomAbove(n - 1, p);
      // Binom(n - 1, n) is 0, so only the first Pascal term remains
      var a := Binom(n - 1, p - 1);
      assert Binom(n, p) == a;
      assert a * (Fact(p - 1) * 1) == Fact(n - 1);
      assert Fact(p) == p * Fact(p - 1);
      MulAssoc(a, p, Fact(p - 1));
      assert a * (Fact(p) * Fact(n - p)) == p * (a * Fact(p - 1));
    } else {
      BinomFactorials(n - 1, p - 1);
      BinomFactorials(n - 1, p);
      assert Fact(p) == p * Fact(p - 1);
      assert Fact(n - p) == (n - p) * Fact(n - 1 - p);
      assert n - 1 - (p - 1) == n - p;
      Pascal(Binom(n - 1, p - 1), Binom(n - 1, p), p, n - p,
             Fact(p - 1), Fact(n - 1 - p), Fact(n - 1));
    }
  }

  lemma {:induction false} BinomEnds(n: nat)
    ensures Binom(n, 0) == 1
    ensures Binom(n, n) == 1
  {
    if n > 0 {
      BinomEnds(n - 1);
      BinomAbove(n - 1, n);
    }
  }

  lemma MulCancel(x: int, y: int, d: int)
    requires d > 0 && x * d == y * d
    ensures x == y
  {
    assert (x - y) * d == 0;
  }

  /** The quotient Choose computes is the binomial coefficient. */
  lemma ChooseQuotient(n: nat, p: nat)
    requires p <= n
    ensures Fact(p) * Fact(n - p) > 0
    ensures Fact(n) / (Fact(p) * Fact(n - p)) == Binom(n, p)
  {
    FactPositive(p);
    FactPositive(n - p);
    BinomFactorials(n, p);
    DivCancel(Binom(n, p), Fact(p) * Fact(n - p));
  }

  lemma BinomSymmetric(n: nat, p: nat)
    requires p <= n
    ensures Binom(n, p) == Binom(n, n - p)
  {
    BinomFactorials(n, p);
    BinomFactorials(n, n - p);
    FactPositive(p);
    FactPositive(n - p);
    assert n - (n - p) == p;
    var d := Fact(p) * Fact(n - p);
    assert Fact(n - p) * Fact(p) == d;
    MulCancel(Binom(n, p), Binom(n, n - p), d);
  }

  /** A binomial coefficient with p <= n is at least 1. */
  lemma BinomPositive(n: nat, p: nat)
    requires p <= n
    ensures Binom(n, p) >= 1
  {
    BinomFactorials(n, p);
    FactPositive(n);
  }

  /** The divisor of Choose for p <= n: p! and (n - p)!, each wrapped to
      64 bits, and their product wrapped again. */
  function WrappedDivisor(n: nat, p: nat): nat
    requires p <= n
  {
    (Fact(p) % U64) * (Fact(n - p) % U64) % U64
  }

  /** Up to 20 nothing wraps, so the divisor is exactly p! (n - p)!. */
  lemma WrappedDivisorExact(n: nat, p: nat)
    requires p <= n <= 20
    ensures WrappedDivisor(n, p) == Fact(p) * Fact(n - p) > 0
    ensures Fact(n) % U64 == Fact(n)
  {
    FactFits(n);
    FactMonotone(p, n);
    FactMonotone(n - p, n);
    FactPositive(p);
    FactPositive(n - p);
    var d := PositiveProduct(Fact(p), Fact(n - p));
    BinomPositive(n, p);
    BinomFactorials(n, p);
    MulAtLeast(Binom(n, p), d);
    Unwrapped(Fact(n));
    Unwrapped(Fact(p));
    Unwrapped(Fact(n - p));
    Unwrapped(d);
  }

  lemma PositiveProduct(x: nat, y: nat) returns (d: nat)
    requires x >= 1 && y >= 1
    ensures d == x * y >= 1
  {
    MulAtLeast(x, y);
    d := x * y;
  }

  lemma Unwrapped(x: nat)
    requires x < U64
    ensures x % U64 == x
  {
  }

  /** Choose as written, for any 32-bit arguments: swap them once when
      n < p, then divide the wrapped factorial of n by the wrapped product
      of the other two. A divisor that wraps to 0 is a division by zero. */
  method ChooseAsWritten(n: nat, p: nat) returns (r: Result<nat>)
    requires n < U32 && p < U32
    ensures r.Failure? ==> r.error == DivisionByZero
    ensures p <= n ==> (r.Failure? <==> WrappedDivisor(n, p) == 0)
    ensures n < p ==> (r.Failure? <==> WrappedDivisor(p, n) == 0)
    ensures p <= n && r.Success? ==> r.value == Fact(n) % U64 / WrappedDivisor(n, p)
    ensures n < p && r.Success? ==> r.value == Fact(p) % U64 / WrappedDivisor(p, n)
    ensures p <= n <= 20 ==> r == Success(Binom(n, p))
    ensures n < p <= 20 ==> r == Success(Binom(p, n))
    decreases if n < p then 1 else 0
  {
    if n < p {
      r := ChooseAsWritten(p, n);
      return;
    }
    var fn := Factorial(n);
    var fp := Factorial(p);
    var fq := Factorial(n - p);
    var divisor := fp * fq % U64;
    if divisor == 0 {
      r := Failure(DivisionByZero);
    } else {
      r := Success(fn / divisor);
    }
    if n <= 20 {
      WrappedDivisorExact(n, p);
      ChooseQuotient(n, p);
    }
  }

  /** (2m)! == 2^m m! (2m - 1)!!: each even factor 2k gives one 2 and a k. */
  lemma {:induction false} FactEven(m: nat)
    ensures Fact(2 * m) == Power(2, m) * Fact(m) * DoubleFact(2 * m - 1)
  {
    if m > 0 {
      FactEven(m - 1);
      var k := 2 * m - 1;
      assert 2 * (m - 1) == k - 1 && 2 * (m - 1) - 1 == k - 2;
      assert Fact(2 * m) == 2 * m * (k * Fact(k - 1));
      assert DoubleFact(k) == k * DoubleFact(k - 2);
      Regroup(m, k, Power(2, m - 1), Fact(m - 1), DoubleFact(k - 2));
    }
  }

  lemma Regroup(m: int, k: int, a: int, f: int, d: int)
    ensures 2 * m * (k * (a * f * d)) == a * 2 * (m * f) * (k * d)
  {
  }

  /** From 66 on, n! wraps to 0 in 64 bits. */
  lemma {:induction false} FactWraps(n: nat)
    requires n >= 66
    ensures Fact(n) % U64 == 0
    decreases n
  {
    if n > 66 {
      FactWraps(n - 1);
      ModMul(Fact(n - 1), n);
      assert Fact(n) == Fact(n - 1) * n;
    } else {
      FactSixtySixWraps(n);
    }
  }

  /** 66! has 33 + 16 + 8 + 4 + 3 = 64 factors 2: halve the even factors of
      66!, then of 32!, 16! and 8!, and 4! == 2^3 * 3. */
  lemma FactSixtySixWraps(n: nat)
    requires n == 66
    ensures Fact(n) % U64 == 0
  {
    var a := n - 33;
    var b := a - 17;
    var c := b - 8;
    var d := c - 4;
    var q := HalvingChain(n, a, b, c, d);
    FactFour(d);
    PowersOfTwo(a, b, c, d, 3);
    TwoToTheSixtyFour();
    var q' := SplitLastFactor(Fact(n), Power(2, a) * (Power(2, b) * (Power(2, c) * Power(2, d))),
                              Fact(d), Power(2, 3), q);
    MultipleOfModulus(q');
  }

  /** Halving the even factors of n!, then of (a - 1)!, b! and c! in turn. */
  lemma HalvingChain(n: nat, a: nat, b: nat, c: nat, d: nat) returns (q: int)
    requires n == 2 * a && a == 2 * b + 1 && b == 2 * c && c == 2 * d && d >= 1
    ensures Fact(n) == Power(2, a) * (Power(2, b) * (Power(2, c) * Power(2, d))) * Fact(d) * q
  {
    FactEven(a);
    FactEven(b);
    FactEven(c);
    FactEven(d);
    assert Fact(a) == a * Fact(2 * b);
    var pa, pb, pc, pd := Power(2, a), Power(2, b), Power(2, c), Power(2, d);
    var q1 := Level(Fact(b), pc, DoubleFact(2 * c - 1), pd, Fact(d), DoubleFact(2 * d - 1));
    var q2 := Level(Fact(2 * b), pb, DoubleFact(2 * b - 1), pc * pd, Fact(d), q1);
    var q3 := a * q2;
    MulAssoc(pb * (pc * pd), Fact(d), q2);
    assert Fact(a) == pb * (pc * pd) * Fact(d) * q3 by {
      LevelFactor(Fact(a), a, pb * (pc * pd) * Fact(d), q2);
    }
    q := Level(Fact(n), pa, DoubleFact(2 * a - 1), pb * (pc * pd), Fact(d), q3);
  }

  /** One halving step: F == P (P' f Q) D regroups to (P P') f (Q D). */
  lemma Level(F: int, P: int, D: int, P': int, f: int, Q: int) returns (Q': int)
    requires F == P * (P' * f * Q) * D
    ensures F == P * P' * f * Q'
  {
    Q' := Q * D;
    assert P * (P' * f * Q) * D == P * P' * f * (Q * D);
  }

  lemma LevelFactor(F: int, k: int, X: int, Q: int)
    requires F == k * (X * Q)
    ensures F == X * (k * Q)
  {
  }

  lemma SplitLastFactor(x: int, p: int, f: int, p3: int, q: int) returns (q': int)
    requires x == p * f * q && f == p3 * 3
    ensures x == p * p3 * q'
  {
    q' := 3 * q;
    MulAssoc(p, p3 * 3, q);
    MulAssoc(p, p3, 3 * q);
  }

  lemma FactFour(d: nat)
    requires d == 4
    ensures Fact(d) == Power(2, 3) * 3
  {
    assert Fact(d) == d * Fact(d - 1);
    assert Fact(d - 1) == (d - 1) * Fact(d - 2);
    assert Fact(d - 2) == (d - 2) * Fact(d - 3);
    assert Power(2, 3) == 8;
  }

  lemma MultipleOfModulus(q: int)
    ensures U64 * q % U64 == 0
  {
  }

  /** A product of five powers of 2 is 2 to the sum of the exponents. */
  lemma PowersOfTwo(a: nat, b: nat, c: nat, d: nat, e: nat)
    ensures Power(2, a) * (Power(2, b) * (Power(2, c) * Power(2, d))) * Power(2, e)
            == Power(2, a + b + c + d + e)
  {
    PowerAdd(2, c, d);
    PowerAdd(2, b, c + d);
    PowerAdd(2, a, b + c + d);
    PowerAdd(2, a + b + c + d, e);
  }

  lemma TwoToTheSixtyFour()
    ensures Power(2, 64) == U64
  {
    assert Power(2, 1) == 2;
    PowerSquare(1, 2);
    PowerSquare(2, 4);
    PowerSquare(4, 16);
    PowerSquare(8, 0x100);
    PowerSquare(16, 0x1_0000);
    PowerSquare(32, 0x1_0000_0000);
  }

  lemma PowerSquare(k: nat, v: int)
    requires Power(2, k) == v
    ensures Power(2, 2 * k) == v * v
  {
    PowerAdd(2, k, k);
  }

  /** Choose as written divides by zero once p or n - p reaches 66, because
      its divisor then wraps to 0, although the binomial coefficient is a
      positive integer: Choose(66, 0) divides 0 by 0 where 1 is due. */
  lemma ChooseDividesByZero(n: nat, p: nat)
    requires p <= n && (p >= 66 || n - p >= 66)
    ensures WrappedDivisor(n, p) == 0
    ensures Binom(n, p) >= 1
  {
    if p >= 66 {
      FactWraps(p);
    } else {
      FactWraps(n - p);
    }
    ZeroFactor(Fact(p) % U64, Fact(n - p) % U64);
    BinomPositive(n, p);
  }

  lemma ZeroFactor(x: nat, y: nat)
    requires x == 0 || y == 0
    ensures x * y % U64 == 0
  {
  }

  /** The identity behind the multiplicative formula:
      C(n, k + 1) (k + 1) == C(n, k) (n - k). */
  lemma BinomStep(n: nat, k: nat)
    requires k < n
    ensures Binom(n, k + 1) * (k + 1) == Binom(n, k) * (n - k)
  {
    BinomFactorials(n, k);
    BinomFactorials(n, k + 1);
    FactPositive(k);
    FactPositive(n - k - 1);
    var x := Fact(k) * Fact(n - k - 1);
    assert Fact(k + 1) == (k + 1) * Fact(k);
    assert Fact(n - k) == (n - k) * Fact(n - k - 1);
    StepRegroup(Binom(n, k + 1), Binom(n, k), k + 1, n - k, Fact(k), Fact(n - k - 1));
    MulCancel(Binom(n, k + 1) * (k + 1), Binom(n, k) * (n - k), x);
  }

  lemma StepRegroup(a: int, b: int, s: int, t: int, f: int, g: int)
    ensures a * ((s * f) * g) == a * s * (f * g)
    ensures b * (f * (t * g)) == b * t * (f * g)
  {
  }

  /** Choose as evidently intended: C(n, p), with the arguments swapped once
      when n < p, and no division by zero. It builds C(n, k) for k = 0 .. p
      by the multiplicative formula, every division of which is exact. */
  method Choose(n: nat, p: nat) returns (r: nat)
    ensures p <= n ==> r == Binom(n, p)
    ensures n < p ==> r == Binom(p, n)
    ensures p <= n ==> r * (Fact(p) * Fact(n - p)) == Fact(n)
    decreases if n < p then 1 else 0
  {
    if n < p {
      r := Choose(p, n);
      return;
    }
    BinomEnds(n);
    r := 1;
    for k := 0 to p
      invariant r == Binom(n, k)
    {
      BinomStep(n, k);
      DivCancel(Binom(n, k + 1), k + 1);
      r := r * (n - k) / (k + 1);
    }
    BinomFactorials(n, p);
  }

  /** The standard Fibonacci numbers F(0) = 0, F(1) = 1. */
  function Fib(n: nat): nat {
    if n < 2 then n else Fib(n - 1) + Fib(n - 2)
  }

  /** One step of either loop: the wrapped sum of two consecutive wrapped
      numbers is the next one, wrapped. */
  lemma FibStep(i: nat, a: nat, b: nat)
    requires a == Fib(i) % U64 && b == Fib(i + 1) % U64
    ensures (a + b) % U64 == Fib(i + 2) % U64
  {
    ModAdd(Fib(i), Fib(i + 1));
    assert Fib(i + 2) == Fib(i + 1) + Fib(i);
  }

  /** Fibonacci as written: after the loop `fib` holds F(n + 1), except
      that no iteration runs for n == 0 and `fib` keeps its initial 0. */
  method Fibonacci(n: nat) returns (fib: nat)
    requires n < U32
    ensures n == 0 ==> fib == 0
    ensures n >= 1 ==> fib == Fib(n + 1) % U64
  {
    fib := 0;
    var a: nat := 0;
    var b: nat := 1;
    var i := 0;
    while i < n
      invariant i <= n
      invariant a == Fib(i) % U64 && b == Fib(i + 1) % U64
      invariant i == 0 ==> fib == 0
      invariant i >= 1 ==> fib == b
    {
      FibStep(i, a, b);
      fib := (a + b) % U64;
      a, b := b, fib;
      i := i + 1;
    }
  }

  /** The loop the source evidently intends: return `a`, which holds F(n). */
  method FibonacciStandard(n: nat) returns (fib: nat)
    requires n < U32
    ensures fib == Fib(n) % U64
  {
    var a: nat := 0;
    var b: nat := 1;
    var i := 0;
    while i < n
      invariant i <= n
      invariant a == Fib(i) % U64 && b == Fib(i + 1) % U64
    {
      FibStep(i, a, b);
      a, b := b, (a + b) % U64;
      i := i + 1;
    }
    fib := a;
  }

  /** At n == 2 the two disagree: the loop as written yields 2, F(2) is 1;
      so the as-written values break F(n + 2) == F(n + 1) + F(n) at n == 0. */
  method FibonacciAtTwo() returns (asWritten: nat, standard: nat, atOne: nat, atZero: nat)
    ensures asWritten == 2 && standard == 1
    ensures asWritten != atOne + atZero
  {
    asWritten := Fibonacci(2);
    standard := FibonacciStandard(2);
    atOne := Fibonacci(1);
    atZero := Fibonacci(0);
  }
}

=== FILE: complex.dfy ===
/**
  Complex numbers over the integer element kind: a pair (re, im) with
  conjugate, equality and the ring operations.

  The value operators `+`, `-` and `*` work on a private copy of the left
  operand, so they are plain functions of their arguments. The compound
  assignments `+=`, `-=` and `*=` write into the receiver while reading the
  argument, and the argument may be the receiver itself. To say what they do
  under such aliasing they are modelled on a store: a sequence of complex
  objects, with the receiver and the argument given by index.
*/
module ComplexNumbers {

  /** The two stored components; `Real()` and `Complex()` read them. */
  datatype Complex = Complex(re: int, im: int)

  /** The constructor, with both components defaulting to zero. */
  function Make(x: int := 0, y: int := 0): Complex {
    Complex(x, y)
  }

  /** The components read back are the ones stored; omitted ones are 0. */
  lemma ConstructorDefaults(x: int, y: int)
    ensures Make(x, y).re == x && Make(x, y).im == y
    ensures Make(x) == Make(x, 0) && Make() == Complex(0, 0)
  {
  }

  function Conjugate(z: Complex): Complex {
    Complex(z.re, -z.im)
  }

  function Add(z: Complex, w: Complex): Complex {
    Complex(z.re + w.re, z.im + w.im)
  }

  function Sub(z: Complex, w: Complex): Complex {
    Complex(z.re - w.re, z.im - w.im)
  }

  /** (a + bi)(c + di) = (ac - bd) + (bc + ad)i. */
  function Mul(z: Complex, w: Complex): Complex {
    Complex(z.re * w.re - z.im * w.im, z.im * w.re + z.re * w.im)
  }

  /** `==` compares the real parts and then the imaginary parts. */
  function Equal(z: Complex, w: Complex): (b: bool)
    ensures b <==> z == w
  {
    z.re == w.re && z.im == w.im
  }

  function NotEqual(z: Complex, w: Complex): (b: bool)
    ensures b <==> z != w
  {
    !Equal(z, w)
  }

  lemma ConjugateInvolution(z: Complex)
    ensures Conjugate(Conjugate(z)) == z
    ensures Conjugate(z).re == z.re && Conjugate(z).im == -z.im
  {
  }

  lemma AddCommutes(z: Complex, w: Complex)
    ensures Add(z, w) == Add(w, z)
  {
  }

  lemma SubUndoesAdd(z: Complex, w: Complex)
    ensures Sub(Add(z, w), w) == z
  {
  }

  lemma SubSelfIsZero(z: Complex)
    ensures Sub(z, z) == Make()
  {
  }

  lemma MulCommutes(z: Complex, w: Complex)
    ensures Mul(z, w) == Mul(w, z)
  {
  }

  /** Make(1) is the unit of multiplication. */
  lemma MulOne(z: Complex)
    ensures Mul(z, Make(1)) == z && Mul(Make(1), z) == z
  {
  }

  lemma MulAssociative(u: Complex, v: Complex, w: Complex)
    ensures Mul(Mul(u, v), w) == Mul(u, Mul(v, w))
  {
    var a, b, c, d, e, f := u.re, u.im, v.re, v.im, w.re, w.im;
    assert (a * c - b * d) * e - (b * c + a * d) * f == a * (c * e - d * f) - b * (d * e + c * f);
    assert (b * c + a * d) * e + (a * c - b * d) * f == b * (c * e - d * f) + a * (d * e + c * f);
  }

  lemma MulDistributes(u: Complex, v: Complex, w: Complex)
    ensures Mul(u, Add(v, w)) == Add(Mul(u, v), Mul(u, w))
  {
    var a, b := u.re, u.im;
    Distribute(a, v.re, w.re);
    Distribute(b, v.im, w.im);
    Distribute(b, v.re, w.re);
    Distribute(a, v.im, w.im);
  }

  lemma Distribute(a: int, x: int, y: int)
    ensures a * (x + y) == a * x + a * y
  {
  }

  /** z times its conjugate is the real number re^2 + im^2, never negative. */
  lemma MulConjugate(z: Complex)
    ensures Mul(z, Conjugate(z)) == Make(z.re * z.re + z.im * z.im)
    ensures Mul(z, Conjugate(z)).re >= 0
  {
  }

  /** Conjugation is a ring homomorphism. */
  lemma ConjugateOfMul(z: Complex, w: Complex)
    ensures Conjugate(Mul(z, w)) == Mul(Conjugate(z), Conjugate(w))
    ensures Conjugate(Add(z, w)) == Add(Conjugate(z), Conjugate(w))
  {
    assert z.im * (-w.im) == -(z.im * w.im);
    assert (-z.im) * w.re == -(z.im * w.re);
    assert z.re * (-w.im) == -(z.re * w.im);
  }

  /** `+=` on a store: the real part is updated, then the imaginary part. */
  function AddAssign(s: seq<Complex>, dst: nat, src: nat): (t: seq<Complex>)
    requires dst < |s| && src < |s|
    ensures t == s[dst := Add(s[dst], s[src])]
  {
    var s1 := s[dst := Complex(s[dst].re + s[src].re, s[dst].im)];
    s1[dst := Complex(s1[dst].re, s1[dst].im + s1[src].im)]
  }

  /** `-=` on a store, in the same order as `+=`. */
  function SubAssign(s: seq<Complex>, dst: nat, src: nat): (t: seq<Complex>)
    requires dst < |s| && src < |s|
    ensures t == s[dst := Sub(s[dst], s[src])]
  {
    var s1 := s[dst := Complex(s[dst].re - s[src].re, s[dst].im)];
    s1[dst := Complex(s1[dst].re, s1[dst].im - s1[src].im)]
  }

  /** `z -= z` leaves zero, and `(z += w) -= w` gives z back. */
  lemma CompoundAddSub(s: seq<Complex>, dst: nat, src: nat)
    requires dst < |s| && src < |s|
    ensures SubAssign(s, dst, dst)[dst] == Make()
    ensures dst != src ==> SubAssign(AddAssign(s, dst, src), dst, src) == s
  {
    if dst != src {
      var t := SubAssign(AddAssign(s, dst, src), dst, src);
      assert t[dst] == Sub(Add(s[dst], s[src]), s[src]);
      SubUndoesAdd(s[dst], s[src]);
    }
  }

  /** `*=` as written: it copies the receiver into u but reads the argument
      after the real part has been stored, so the argument is stale when it
      is the receiver itself. */
  function MulAssignAsWritten(s: seq<Complex>, dst: nat, src: nat): (t: seq<Complex>)
    requires dst < |s| && src < |s|
    ensures |t| == |s|
    ensures forall k :: 0 <= k < |s| && k != dst ==> t[k] == s[k]
    ensures dst != src ==> t[dst] == Mul(s[dst], s[src])
  {
    var u := s[dst];
    var s1 := s[dst := Complex(u.re * s[src].re - u.im * s[src].im, s[dst].im)];
    s1[dst := Complex(s1[dst].re, u.im * s1[src].re + u.re * s1[src].im)]
  }

  /** The aliased case: (1 + i) *= (1 + i) stores i, where (1 + i)^2 is 2i. */
  lemma MulAssignAliasedCounterexample()
    ensures MulAssignAsWritten([Make(1, 1)], 0, 0) == [Make(0, 1)]
    ensures Mul(Make(1, 1), Make(1, 1)) == Make(0, 2)
  {
    var s1 := [Make(1, 1)][0 := Complex(0, 1)];
    assert s1[0] == Make(0, 1);
  }

  /** `*=` with the argument copied as well as the receiver: the product is
      right whether or not the two are the same object. */
  function MulAssign(s: seq<Complex>, dst: nat, src: nat): (t: seq<Complex>)
    requires dst < |s| && src < |s|
    ensures t == s[dst := Mul(s[dst], s[src])]
  {
    var u := s[dst];
    var c := s[src];
    var s1 := s[dst := Complex(u.re * c.re - u.im * c.im, s[dst].im)];
    s1[dst := Complex(s1[dst].re, u.im * c.re + u.re * c.im)]
  }

  /** The two versions of `*=` differ only when the argument is the receiver. */
  lemma MulAssignAgreesUnaliased(s: seq<Complex>, dst: nat, src: nat)
    requires dst < |s| && src < |s| && dst != src
    ensures MulAssignAsWritten(s, dst, src) == MulAssign(s, dst, src)
  {
  }
}

=== FILE: determinants.dfy ===
/**
  Determinant by cofactor expansion along row 0, and the adjugate inverse.
  Entries are `int` throughout; the inverse divides with `Scalar.Quot`,
  which truncates toward zero as C++ `int` division does.
 */
module Determinants {
  import opened Failures
  import opened Scalar
  import opened Matrix
  import V = Vector

  predicate IsSquare<T>(M: seq<seq<T>>) {
    IsMatrix(M, |M|, |M|)
  }

  /** The source's `k % 2 ? -1 : 1`, that is (-1)^k. */
  function Sign(k: nat): int {
    if k % 2 == 1 then -1 else 1
  }

  lemma ReducedSquare<T>(M: seq<seq<T>>, r: nat, c: nat)
    requires IsSquare(M) && r < |M| && c < |M|
    ensures IsSquare(Reduced(M, r, c))
    ensures |Reduced(M, r, c)| == |M| - 1
  {
    ReducedEntry(M, |M|, |M|, r, c);
  }

  /** 0 for the empty matrix, the entry of a 1 x 1 matrix, and otherwise the
      row-0 expansion, snapped to 0 when within Epsilon of it. */
  function Determinant(M: Mat): int
    requires IsSquare(M)
    decreases |M|, 1
  {
    if |M| == 0 then 0
    else if |M| == 1 then M[0][0]
    else
      var det := Laplace(M, |M|);
      if Abs(det) as real <= Epsilon(V.Elem) then 0 else det
  }

  /** The first n terms of the row-0 expansion. */
  function Laplace(M: Mat, n: nat): int
    requires IsSquare(M) && n <= |M|
    decreases |M|, 0, n
  {
    if n == 0 then 0
    else
      ReducedSquare(M, 0, n - 1);
      Laplace(M, n - 1) + Sign(n - 1) * M[0][n - 1] * Determinant(Reduced(M, 0, n - 1))
  }

  /** The signed minor at (i, j). */
  function Cofactor(M: Mat, i: nat, j: nat): int
    requires IsSquare(M) && i < |M| && j < |M|
  {
    ReducedSquare(M, i, j);
    Sign(i + j) * Determinant(Reduced(M, i, j))
  }

  /** Fails when the determinant Equals zero; a 1 x 1 matrix inverts to
      `1 / M[0][0]`; otherwise entry (i, j), before the final transpose, is
      the cofactor at (i, j) over the determinant. Elements are `int`, so
      both divisions truncate toward zero, and AutoCorrect leaves them be. */
  function Inverse(M: Mat): (r: Result<Mat>)
    requires IsSquare(M)
    ensures r.Failure? <==> Determinant(M) == 0
    ensures r.Failure? ==> r.error == NotInvertible
    ensures r.Success? ==> IsSquare(r.value) && |r.value| == |M|
  {
    var N := |M|;
    var det := Determinant(M);
    EqualsExactUnlessFloat(V.Elem, det as real, 0.0);
    if Equals(V.Elem, det as real, 0.0) then Failure(NotInvertible)
    else
      var inverse := if N == 1 then [[Quot(1, M[0][0])]] else CofactorQuotients(M, det);
      TransposeShape(inverse, N, N);
      Success(Transpose(inverse, N))
  }

  /** Entry (i, j) is the cofactor at (i, j) divided by det. The contract
      only exposes the comprehension to callers; `InverseEntries` states
      what the inverse is. */
  function CofactorQuotients(M: Mat, det: int): (q: Mat)
    requires IsSquare(M) && det != 0
    ensures IsMatrix(q, |M|, |M|)
    ensures forall i, j :: 0 <= i < |M| && 0 <= j < |M| ==> q[i][j] == Quot(Cofactor(M, i, j), det)
  {
    seq(|M|, i requires 0 <= i < |M| => seq(|M|, j requires 0 <= j < |M| =>
      Quot(Cofactor(M, i, j), det)))
  }

  /** On integers the Epsilon snap never fires: for N >= 2 the determinant
      is exactly the row-0 expansion. */
  lemma DeterminantIsLaplace(M: Mat)
    requires IsSquare(M) && |M| >= 2
    ensures Determinant(M) == Laplace(M, |M|)
  {
  }

  lemma DeterminantOneByOne(a: int)
    ensures Determinant([[a]]) == a
  {
  }

  lemma DeterminantTwoByTwo(a: int, b: int, c: int, d: int)
    ensures Determinant([[a, b], [c, d]]) == a * d - b * c
  {
    var M := [[a, b], [c, d]];
    ReducedTwoByTwo(M);
    assert Laplace(M, 1) == a * d;
    assert Laplace(M, 2) == a * d - b * c;
  }

  /** The 2 x 2 formula for a matrix given by its entries. */
  lemma DeterminantOfTwoByTwo(M: Mat)
    requires IsMatrix(M, 2, 2)
    ensures Determinant(M) == M[0][0] * M[1][1] - M[0][1] * M[1][0]
  {
    ReducedTwoByTwo(M);
    DeterminantOneByOne(M[1][1]);
    DeterminantOneByOne(M[1][0]);
    var d0 := Determinant(Reduced(M, 0, 0));
    var d1 := Determinant(Reduced(M, 0, 1));
    assert Laplace(M, 1) == M[0][0] * d0 by { UnitSign(M[0][0], d0); }
    assert Laplace(M, 2) == Laplace(M, 1) - M[0][1] * d1 by { NegativeSign(M[0][1], d1); }
    DeterminantIsLaplace(M);
  }

  /** A minor along row 0 of a 3 x 3 matrix, by the 2 x 2 formula. */
  lemma MinorThreeByThree(M: Mat, k: nat, p: nat, q: nat)
    requires IsMatrix(M, 3, 3) && k < 3 && p == Skip(0, k) && q == Skip(1, k)
    ensures IsSquare(Reduced(M, 0, k)) && |Reduced(M, 0, k)| == 2
    ensures Determinant(Reduced(M, 0, k)) == M[1][p] * M[2][q] - M[1][q] * M[2][p]
  {
    ReducedEntry(M, 3, 3, 0, k);
    var m := Reduced(M, 0, k);
    assert m[0][0] == M[1][p] && m[0][1] == M[1][q];
    assert m[1][0] == M[2][p] && m[1][1] == M[2][q];
    DeterminantOfTwoByTwo(m);
  }

  /** The 3 x 3 determinant, expanded along row 0, with the entries named. */
  lemma DeterminantThreeByThree(M: Mat, a: int, b: int, c: int, d: int, e: int, f: int, g: int, h: int, i: int)
    requires IsMatrix(M, 3, 3)
    requires M[0][0] == a && M[0][1] == b && M[0][2] == c
    requires M[1][0] == d && M[1][1] == e && M[1][2] == f
    requires M[2][0] == g && M[2][1] == h && M[2][2] == i
    ensures Determinant(M) == a * (e * i - f * h) - b * (d * i - f * g) + c * (d * h - e * g)
  {
    MinorThreeByThree(M, 0, 1, 2);
    MinorThreeByThree(M, 1, 0, 2);
    MinorThreeByThree(M, 2, 0, 1);
    var d0 := Determinant(Reduced(M, 0, 0));
    var d1 := Determinant(Reduced(M, 0, 1));
    var d2 := Determinant(Reduced(M, 0, 2));
    assert Laplace(M, 1) == a * d0 by { UnitSign(M[0][0], d0); }
    assert Laplace(M, 2) == Laplace(M, 1) - b * d1 by { NegativeSign(M[0][1], d1); }
    assert Laplace(M, 3) == Laplace(M, 2) + c * d2 by { UnitSign(M[0][2], d2); }
    DeterminantIsLaplace(M);
  }

  lemma UnitSign(a: int, d: int)
    ensures Sign(0) * a * d == a * d && Sign(2) * a * d == a * d
  {
  }

  lemma NegativeSign(a: int, d: int)
    ensures Sign(1) * a * d == -(a * d)
  {
  }

  /** Transposing leaves the determinant unchanged, for every size up to 3. */
  lemma DeterminantTranspose(M: Mat)
    requires IsSquare(M) && |M| <= 3
    ensures IsSquare(Transpose(M, |M|))
    ensures Determinant(Transpose(M, |M|)) == Determinant(M)
  {
    var N := |M|;
    TransposeShape(M, N, N);
    if N == 1 {
      assert Transpose(M, N)[0][0] == M[0][0];
    } else if N == 2 {
      TransposeTwoByTwo(M, Transpose(M, N));
    } else if N == 3 {
      TransposeThreeByThree(M, Transpose(M, N));
    }
  }

  lemma TransposeTwoByTwo(M: Mat, T: Mat)
    requires IsMatrix(M, 2, 2) && IsMatrix(T, 2, 2)
    requires forall i, j :: 0 <= i < 2 && 0 <= j < 2 ==> T[j][i] == M[i][j]
    ensures Determinant(T) == Determinant(M)
  {
    DeterminantOfTwoByTwo(M);
    DeterminantOfTwoByTwo(T);
    assert T[0][1] == M[1][0] && T[1][0] == M[0][1];
    assert T[0][0] == M[0][0] && T[1][1] == M[1][1];
  }

  lemma TransposeThreeByThree(M: Mat, T: Mat)
    requires IsMatrix(M, 3, 3) && IsMatrix(T, 3, 3)
    requires forall i, j :: 0 <= i < 3 && 0 <= j < 3 ==> T[j][i] == M[i][j]
    ensures Determinant(T) == Determinant(M)
  {
    var a, b, c := M[0][0], M[0][1], M[0][2];
    var d, e, f := M[1][0], M[1][1], M[1][2];
    var g, h, i := M[2][0], M[2][1], M[2][2];
    assert T[0][0] == a && T[0][1] == d && T[0][2] == g;
    assert T[1][0] == b && T[1][1] == e && T[1][2] == h;
    assert T[2][0] == c && T[2][1] == f && T[2][2] == i;
    DeterminantThreeByThree(M, a, b, c, d, e, f, g, h, i);
    DeterminantThreeByThree(T, a, d, g, b, e, h, c, f, i);
    ThreeByThreeSymmetric(a, b, c, d, e, f, g, h, i);
  }

  /** The 3 x 3 expansion along row 0 equals the one along column 0. */
  lemma ThreeByThreeSymmetric(a: int, b: int, c: int, d: int, e: int, f: int, g: int, h: int, i: int)
    ensures a * (e * i - f * h) - b * (d * i - f * g) + c * (d * h - e * g)
         == a * (e * i - h * f) - d * (b * i - h * c) + g * (b * f - e * c)
  {
  }

  lemma ReducedTwoByTwo(M: Mat)
    requires IsMatrix(M, 2, 2)
    ensures Reduced(M, 0, 0) == [[M[1][1]]] && Reduced(M, 0, 1) == [[M[1][0]]]
    ensures Reduced(M, 1, 0) == [[M[0][1]]] && Reduced(M, 1, 1) == [[M[0][0]]]
  {
    ReducedEntry(M, 2, 2, 0, 0);
    ReducedEntry(M, 2, 2, 0, 1);
    ReducedEntry(M, 2, 2, 1, 0);
    ReducedEntry(M, 2, 2, 1, 1);
    EqualEntries(Reduced(M, 0, 0), [[M[1][1]]], 1, 1);
    EqualEntries(Reduced(M, 0, 1), [[M[1][0]]], 1, 1);
    EqualEntries(Reduced(M, 1, 0), [[M[0][1]]], 1, 1);
    EqualEntries(Reduced(M, 1, 1), [[M[0][0]]], 1, 1);
  }

  /** A matrix whose row k is all zero has determinant 0. */
  lemma {:induction false} DeterminantZeroRow(M: Mat, k: nat)
    requires IsSquare(M) && k < |M|
    requires forall j :: 0 <= j < |M| ==> M[k][j] == 0
    ensures Determinant(M) == 0
    decreases |M|
  {
    if |M| >= 2 {
      LaplaceZeroRow(M, k, |M|);
    }
  }

  lemma {:induction false} LaplaceZeroRow(M: Mat, k: nat, n: nat)
    requires IsSquare(M) && k < |M| && n <= |M| && |M| >= 2
    requires forall j :: 0 <= j < |M| ==> M[k][j] == 0
    ensures Laplace(M, n) == 0
    decreases |M|, n
  {
    if n > 0 {
      LaplaceZeroRow(M, k, n - 1);
      ReducedSquare(M, 0, n - 1);
      var d := Determinant(Reduced(M, 0, n - 1));
      if k > 0 {
        ReducedKeepsZeroRow(M, k, n - 1);
        DeterminantZeroRow(Reduced(M, 0, n - 1), k - 1);
      } else {
        assert M[0][n - 1] == 0;
      }
      ZeroTerm(Sign(n - 1), M[0][n - 1], d);
    }
  }

  lemma ZeroTerm(s: int, a: int, d: int)
    requires a == 0 || d == 0
    ensures s * a * d == 0
  {
  }

  /** Striking row 0 moves a zero row k up to k - 1, and it stays zero. */
  lemma ReducedKeepsZeroRow(M: Mat, k: nat, c: nat)
    requires IsSquare(M) && 0 < k < |M| && c < |M|
    requires forall j :: 0 <= j < |M| ==> M[k][j] == 0
    ensures IsSquare(Reduced(M, 0, c))
    ensures var row := Reduced(M, 0, c)[k - 1]; forall j :: 0 <= j < |row| ==> row[j] == 0
  {
    ReducedEntry(M, |M|, |M|, 0, c);
  }

  /** Deleting row i and column i of the identity leaves the identity. */
  lemma ReducedIdentity(N: nat, i: nat)
    requires i < N
    ensures Reduced(Identity(N), i, i) == Identity(N - 1)
  {
    ReducedEntry(Identity(N), N, N, i, i);
    EqualEntries(Reduced(Identity(N), i, i), Identity(N - 1), N - 1, N - 1);
  }

  /** When row 0 is the first unit vector, the expansion keeps only the
      first term: the minor at (0, 0). */
  lemma {:induction false} LaplaceUnitRow(M: Mat, n: nat)
    requires IsSquare(M) && |M| >= 2 && 1 <= n <= |M|
    requires forall j :: 0 <= j < |M| ==> M[0][j] == if j == 0 then 1 else 0
    ensures IsSquare(Reduced(M, 0, 0)) && Laplace(M, n) == Determinant(Reduced(M, 0, 0))
    decreases n
  {
    ReducedSquare(M, 0, 0);
    if n > 1 {
      LaplaceUnitRow(M, n - 1);
      LaplaceZeroTerm(M, n);
    } else {
      LaplaceFirstTerm(M, Determinant(Reduced(M, 0, 0)));
    }
  }

  /** The first term of the expansion, with a unit leading entry. */
  lemma LaplaceFirstTerm(M: Mat, d: int)
    requires IsSquare(M) && |M| >= 2 && M[0][0] == 1
    requires IsSquare(Reduced(M, 0, 0)) && d == Determinant(Reduced(M, 0, 0))
    ensures Laplace(M, 1) == d
  {
    UnitTerm(Sign(0), M[0][0], d);
  }

  lemma UnitTerm(s: int, a: int, d: int)
    requires s == 1 && a == 1
    ensures s * a * d == d
  {
  }

  /** A zero entry in row 0 adds nothing to the expansion. */
  lemma LaplaceZeroTerm(M: Mat, n: nat)
    requires IsSquare(M) && 1 <= n <= |M| && M[0][n - 1] == 0
    ensures Laplace(M, n) == Laplace(M, n - 1)
  {
    ReducedSquare(M, 0, n - 1);
    ZeroTerm(Sign(n - 1), M[0][n - 1], Determinant(Reduced(M, 0, n - 1)));
  }

  lemma LaplaceIdentity(N: nat)
    requires 2 <= N
    ensures Laplace(Identity(N), N) == Determinant(Identity(N - 1))
  {
    ReducedIdentity(N, 0);
    LaplaceUnitRow(Identity(N), N);
  }

  /** The identity has determinant 1, for every size but 0 (where the
      source's convention gives 0). */
  lemma {:induction false} DeterminantIdentity(N: nat)
    ensures N >= 1 ==> Determinant(Identity(N)) == 1
    ensures N == 0 ==> Determinant(Identity(N)) == 0
  {
    if N >= 2 {
      LaplaceIdentity(N);
      DeterminantIdentity(N - 1);
    }
  }

  /** On a non-singular matrix the inverse succeeds; a 1 x 1 matrix gives
      the reciprocal, and a larger one the transposed cofactor matrix over
      the determinant. */
  lemma InverseEntries(M: Mat)
    requires IsSquare(M) && Determinant(M) != 0
    ensures Inverse(M).Success?
    ensures |M| == 1 ==> Inverse(M).value == [[Quot(1, M[0][0])]]
    ensures |M| >= 2 ==> forall i, j :: 0 <= i < |M| && 0 <= j < |M| ==>
              Inverse(M).value[j][i] == Quot(Cofactor(M, i, j), Determinant(M))
  {
    var det := Determinant(M);
    EqualsExactUnlessFloat(V.Elem, det as real, 0.0);
    var N := |M|;
    var inverse := if N == 1 then [[Quot(1, M[0][0])]] else CofactorQuotients(M, det);
    assert Inverse(M) == Success(Transpose(inverse, N));
    TransposeShape(inverse, N, N);
    if N == 1 {
      EqualEntries(Transpose(inverse, N), inverse, 1, 1);
    }
  }

  /** Where the determinant divides a cofactor, the entry of the inverse
      times the determinant gives the cofactor back. */
  lemma InverseExactEntries(M: Mat, i: nat, j: nat)
    requires IsSquare(M) && |M| >= 2 && Determinant(M) != 0
    requires i < |M| && j < |M| && Cofactor(M, i, j) % Determinant(M) == 0
    ensures Inverse(M).value[j][i] * Determinant(M) == Cofactor(M, i, j)
  {
    InverseEntries(M);
    QuotOfMultiple(Cofactor(M, i, j), Determinant(M));
  }

  /** The zero matrix cannot be inverted. */
  lemma InverseOfZeroFails(N: nat)
    ensures IsSquare(Zero(N, N))
    ensures Inverse(Zero(N, N)) == Failure(NotInvertible)
  {
    ZeroIsAllZero(N, N);
    if N > 0 {
      DeterminantZeroRow(Zero(N, N), 0);
    }
  }

  /** The signed minors of a 2 x 2 matrix are single entries. */
  lemma CofactorsTwoByTwo(M: Mat)
    requires IsMatrix(M, 2, 2)
    ensures Cofactor(M, 0, 0) == M[1][1] && Cofactor(M, 0, 1) == -M[1][0]
    ensures Cofactor(M, 1, 0) == -M[0][1] && Cofactor(M, 1, 1) == M[0][0]
  {
    ReducedTwoByTwo(M);
    DeterminantOneByOne(M[1][1]);
    DeterminantOneByOne(M[1][0]);
    DeterminantOneByOne(M[0][1]);
    DeterminantOneByOne(M[0][0]);
  }

  /** The 2 x 2 adjugate formula: swap the diagonal, negate the rest, and
      divide by the determinant. */
  lemma InverseTwoByTwo(a: int, b: int, c: int, d: int)
    requires a * d - b * c != 0
    ensures var det := a * d - b * c;
      Inverse([[a, b], [c, d]]) ==
      Success([[Quot(d, det), Quot(-b, det)], [Quot(-c, det), Quot(a, det)]])
  {
    DeterminantTwoByTwo(a, b, c, d);
    AdjugateTwoByTwo([[a, b], [c, d]], a * d - b * c);
  }

  lemma AdjugateTwoByTwo(M: Mat, det: int)
    requires IsMatrix(M, 2, 2) && det == Determinant(M) && det != 0
    ensures Inverse(M) == Success([[Quot(M[1][1], det), Quot(-M[0][1], det)],
                                   [Quot(-M[1][0], det), Quot(M[0][0], det)]])
  {
    InverseEntries(M);
    var inv := Inverse(M).value;
    assert inv[0][0] == Quot(Cofactor(M, 0, 0), det);
    assert inv[1][0] == Quot(Cofactor(M, 0, 1), det);
    assert inv[0][1] == Quot(Cofactor(M, 1, 0), det);
    assert inv[1][1] == Quot(Cofactor(M, 1, 1), det);
    AdjugateFromCofactors(M, inv, det);
  }

  /** The four entries of a 2 x 2 inverse, once the cofactors are known. */
  lemma AdjugateFromCofactors(M: Mat, inv: Mat, det: int)
    requires IsMatrix(M, 2, 2) && IsSquare(inv) && |inv| == 2 && det != 0
    requires inv[0][0] == Quot(Cofactor(M, 0, 0), det) && inv[1][0] == Quot(Cofactor(M, 0, 1), det)
    requires inv[0][1] == Quot(Cofactor(M, 1, 0), det) && inv[1][1] == Quot(Cofactor(M, 1, 1), det)
    ensures inv == [[Quot(M[1][1], det), Quot(-M[0][1], det)],
                    [Quot(-M[1][0], det), Quot(M[0][0], det)]]
  {
    CofactorsTwoByTwo(M);
    EqualTwoByTwo(inv, [[Quot(M[1][1], det), Quot(-M[0][1], det)],
                        [Quot(-M[1][0], det), Quot(M[0][0], det)]]);
  }

  /** [[1, 2], [3, 4]] has determinant -2; the exact inverse would be
      [[-2, 1], [1.5, -0.5]], and truncation turns it into [[-2, 1], [1, 0]]. */
  lemma InverseTwoByTwoExample()
    ensures Determinant([[1, 2], [3, 4]]) == -2
    ensures Inverse([[1, 2], [3, 4]]) == Success([[-2, 1], [1, 0]])
  {
    DeterminantTwoByTwo(1, 2, 3, 4);
    InverseTwoByTwo(1, 2, 3, 4);
    assert Quot(4, -2) == -2 && Quot(-2, -2) == 1 && Quot(-3, -2) == 1 && Quot(1, -2) == 0;
  }

  /** Off the diagonal a minor of the identity keeps the row whose only 1
      was struck out, so it vanishes; on the diagonal it is the identity. */
  lemma CofactorIdentity(N: nat, i: nat, j: nat)
    requires 2 <= N && i < N && j < N
    ensures Cofactor(Identity(N), i, j) == if i == j then 1 else 0
  {
    var I := Identity(N);
    if i == j {
      ReducedIdentity(N, i);
      DeterminantIdentity(N - 1);
    } else {
      var m := Reduced(I, i, j);
      ReducedEntry(I, N, N, i, j);
      var k: nat := if j < i then j else j - 1;
      assert Skip(k, i) == j;
      var row := m[k];
      forall c | 0 <= c < |m|
        ensures row[c] == 0
      {
        assert row[c] == I[j][Skip(c, j)];
      }
      DeterminantZeroRow(m, k);
    }
  }

  /** The identity is its own inverse (for every size but 0, which the
      source's determinant convention makes singular). */
  lemma InverseIdentity(N: nat)
    ensures N >= 1 ==> Inverse(Identity(N)) == Success(Identity(N))
    ensures N == 0 ==> Inverse(Identity(N)) == Failure(NotInvertible)
  {
    DeterminantIdentity(N);
    if N >= 1 {
      var I := Identity(N);
      InverseEntries(I);
      var inv := Inverse(I).value;
      if N == 1 {
        assert inv == [[Quot(1, 1)]];
        EqualEntries(inv, I, 1, 1);
      } else {
        forall i, j | 0 <= i < N && 0 <= j < N
          ensures inv[j][i] == I[j][i]
        {
          CofactorIdentity(N, i, j);
        }
        EqualEntries(inv, I, N, N);
      }
    }
  }

  /** With determinant 1 or -1 no quotient truncates, and the inverse of a
      2 x 2 matrix undoes it: M times Inverse(M) is the identity. */
  lemma InverseTwoByTwoUnimodular(a: int, b: int, c: int, d: int)
    requires a * d - b * c == 1 || a * d - b * c == -1
    ensures Inverse([[a, b], [c, d]]).Success?
    ensures Transform([[a, b], [c, d]], Inverse([[a, b], [c, d]]).value, 2) == Identity(2)
  {
    DeterminantTwoByTwo(a, b, c, d);
    UnimodularInverse([[a, b], [c, d]], a * d - b * c);
  }

  lemma UnimodularInverse(M: Mat, u: int)
    requires IsMatrix(M, 2, 2) && u == Determinant(M)
    requires u == M[0][0] * M[1][1] - M[0][1] * M[1][0] && (u == 1 || u == -1)
    ensures Inverse(M).Success? && Transform(M, Inverse(M).value, 2) == Identity(2)
  {
    AdjugateTwoByTwo(M, u);
    QuotUnit(M[1][1], u);
    QuotUnit(-M[0][1], u);
    QuotUnit(-M[1][0], u);
    QuotUnit(M[0][0], u);
    InverseLawTwoByTwo(M, Inverse(M).value, u);
  }

  lemma QuotUnit(x: int, u: int)
    requires u == 1 || u == -1
    ensures Quot(x, u) == u * x
  {
  }

  /** M times its adjugate scaled by a unit determinant u is the identity. */
  lemma InverseLawTwoByTwo(M: Mat, inv: Mat, u: int)
    requires IsMatrix(M, 2, 2) && u == M[0][0] * M[1][1] - M[0][1] * M[1][0]
    requires u == 1 || u == -1
    requires inv == [[u * M[1][1], -u * M[0][1]], [-u * M[1][0], u * M[0][0]]]
    ensures Transform(M, inv, 2) == Identity(2)
  {
    TransformTwoByTwo(M, inv);
    UnimodularProducts(M[0][0], M[0][1], M[1][0], M[1][1], u);
    EqualTwoByTwo(Transform(M, inv, 2), Identity(2));
  }

  /** Row times column for M and its adjugate over a unit determinant u. */
  lemma UnimodularProducts(a: int, b: int, c: int, d: int, u: int)
    requires u == a * d - b * c && (u == 1 || u == -1)
    ensures a * (u * d) + b * (-u * c) == 1 && a * (-u * b) + b * (u * a) == 0
    ensures c * (u * d) + d * (-u * c) == 0 && c * (-u * b) + d * (u * a) == 1
  {
    assert a * (u * d) + b * (-u * c) == u * (a * d - b * c);
    assert c * (-u * b) + d * (u * a) == u * (a * d - b * c);
  }

  /** The product of two 2 x 2 matrices, entry by entry. */
  lemma TransformTwoByTwo(A: Mat, B: Mat)
    requires IsMatrix(A, 2, 2) && IsMatrix(B, 2, 2)
    ensures IsMatrix(Transform(A, B, 2), 2, 2)
    ensures forall i, j :: 0 <= i < 2 && 0 <= j < 2 ==>
              Transform(A, B, 2)[i][j] == A[i][0] * B[0][j] + A[i][1] * B[1][j]
  {
    TransformEntry(A, B, 2, 2, 2);
    RowColumnEntries(B, 2, 2);
    forall i, j | 0 <= i < 2 && 0 <= j < 2
      ensures Transform(A, B, 2)[i][j] == A[i][0] * B[0][j] + A[i][1] * B[1][j]
    {
      V.Dot2(Row(A, i), Column(B, j));
    }
  }

  /** Truncation breaks the inverse law elsewhere: [[1, 2], [3, 4]] times its
      integer inverse [[-2, 1], [1, 0]] is [[0, 1], [-2, 3]]. */
  lemma InverseTruncationCounterexample()
    ensures Inverse([[1, 2], [3, 4]]).Success?
    ensures Transform([[1, 2], [3, 4]], Inverse([[1, 2], [3, 4]]).value, 2) == [[0, 1], [-2, 3]]
  {
    InverseTwoByTwoExample();
    TransformTwoByTwo([[1, 2], [3, 4]], [[-2, 1], [1, 0]]);
    EqualTwoByTwo(Transform([[1, 2], [3, 4]], [[-2, 1], [1, 0]], 2), [[0, 1], [-2, 3]]);
  }
}

=== FILE: failures.dfy ===
/** The exceptions the library throws, and the integer division by zero
    C++ leaves undefined, as values. */
module Failures {

  /** One constructor per `std::exception` message the library raises. */
  datatype Error =
    | SizeMismatch       // matrix built from a row list of the wrong length
    | NotInvertible      // inverse of a matrix whose determinant is zero
    | FloatingFactorial  // DoubleFactorial asked of a floating-point kind
    | DivisionByZero     // an unsigned quotient whose divisor wrapped to 0

  /** The outcome of an operation that may throw. */
  datatype Result<+T> = Success(value: T) | Failure(error: Error)
}

=== FILE: matrix.dfy ===
/**
  Fixed-size matrices: an R x C matrix is a sequence of R rows, each a
  vector of C elements. Row and Column hand out copies; compound
  assignments act row by row through the vector operations.
 */
module Matrix {
  import opened Failures
  import V = Vector

  type Mat = seq<seq<int>>

  /** M has R rows of C elements each. */
  predicate IsMatrix<T>(M: seq<seq<T>>, R: nat, C: nat) {
    |M| == R && forall i :: 0 <= i < R ==> |M[i]| == C
  }

  /** The row-list constructor: the list must hold exactly R rows. */
  function FromRows(list: seq<V.Vec>, R: nat, C: nat): (r: Result<Mat>)
    requires forall i :: 0 <= i < |list| ==> |list[i]| == C
    ensures r.Failure? <==> |list| != R
    ensures r.Failure? ==> r.error == SizeMismatch
    ensures r.Success? ==> IsMatrix(r.value, R, C)
    ensures r.Success? ==> forall i :: 0 <= i < R ==> r.value[i] == list[i]
  {
    if |list| != R then Failure(SizeMismatch) else Success(list)
  }

  /** The scalar constructor, with u defaulting to 1: u where i + j is even,
      0 where it is odd. */
  function Fill(R: nat, C: nat, u: int := 1): Mat {
    seq(R, i => seq(C, j => if (i + j) % 2 == 1 then 0 else u))
  }

  function Zero(R: nat, C: nat): Mat {
    Fill(R, C, 0)
  }

  function Identity(N: nat): Mat {
    seq(N, i => seq(N, j => if i == j then 1 else 0))
  }

  lemma FillCheckerboard(u: int, R: nat, C: nat)
    ensures IsMatrix(Fill(R, C, u), R, C)
    ensures forall i, j :: 0 <= i < R && 0 <= j < C && (i + j) % 2 == 0 ==> Fill(R, C, u)[i][j] == u
    ensures forall i, j :: 0 <= i < R && 0 <= j < C && (i + j) % 2 == 1 ==> Fill(R, C, u)[i][j] == 0
    ensures forall i :: 0 <= i < R && i < C ==> Fill(R, C, u)[i][i] == u
  {
  }

  /** Zero() is the checkerboard of 0, which is 0 everywhere. */
  lemma ZeroIsAllZero(R: nat, C: nat)
    ensures IsMatrix(Zero(R, C), R, C)
    ensures forall i, j :: 0 <= i < R && 0 <= j < C ==> Zero(R, C)[i][j] == 0
  {
  }

  /** A copy of row r. */
  function Row<T>(M: seq<seq<T>>, r: nat): seq<T>
    requires r < |M|
  {
    M[r]
  }

  /** A copy of column c. */
  function Column<T>(M: seq<seq<T>>, c: nat): seq<T>
    requires forall i :: 0 <= i < |M| ==> c < |M[i]|
  {
    seq(|M|, i requires 0 <= i < |M| => M[i][c])
  }

  function Transpose<T>(M: seq<seq<T>>, C: nat): seq<seq<T>>
    requires forall i :: 0 <= i < |M| ==> |M[i]| == C
  {
    seq(C, j requires 0 <= j < C => seq(|M|, i requires 0 <= i < |M| => M[i][j]))
  }

  lemma RowColumnEntries<T>(M: seq<seq<T>>, R: nat, C: nat)
    requires IsMatrix(M, R, C)
    ensures forall r :: 0 <= r < R ==> |Row(M, r)| == C && Row(M, r) == M[r]
    ensures forall c, i :: 0 <= c < C && 0 <= i < R ==> |Column(M, c)| == R && Column(M, c)[i] == M[i][c]
    ensures forall c :: 0 <= c < C ==> Column(M, c) == Row(Transpose(M, C), c)
  {
    forall c | 0 <= c < C
      ensures Column(M, c) == Row(Transpose(M, C), c)
    {
      assert |Column(M, c)| == |Row(Transpose(M, C), c)| == R;
    }
  }

  lemma TransposeShape<T>(M: seq<seq<T>>, R: nat, C: nat)
    requires IsMatrix(M, R, C)
    ensures IsMatrix(Transpose(M, C), C, R)
    ensures forall i, j :: 0 <= i < R && 0 <= j < C ==> Transpose(M, C)[j][i] == M[i][j]
  {
  }

  lemma TransposeInvolution<T>(M: seq<seq<T>>, R: nat, C: nat)
    requires IsMatrix(M, R, C)
    ensures Transpose(Transpose(M, C), R) == M
  {
    TransposeShape(M, R, C);
    var T2 := Transpose(Transpose(M, C), R);
    assert |T2| == R;
    forall i | 0 <= i < R
      ensures T2[i] == M[i]
    {
    }
  }

  /** The identity is symmetric. */
  lemma TransposeIdentity(N: nat)
    ensures Transpose(Identity(N), N) == Identity(N)
  {
    TransposeShape(Identity(N), N, N);
    EqualEntries(Transpose(Identity(N), N), Identity(N), N, N);
  }

  /** s with element k deleted. */
  function Remove<T>(s: seq<T>, k: nat): (r: seq<T>)
    requires k < |s|
    ensures |r| == |s| - 1
    ensures forall i :: 0 <= i < |r| ==> r[i] == s[if i < k then i else i + 1]
  {
    s[..k] + s[k + 1..]
  }

  /** The minor: M with row r and column c deleted. */
  function Reduced<T>(M: seq<seq<T>>, r: nat, c: nat): (m: seq<seq<T>>)
    requires r < |M|
    requires forall i :: 0 <= i < |M| ==> c < |M[i]|
    ensures |m| == |M| - 1
    ensures forall i :: 0 <= i < |m| ==> |m[i]| == |M[Skip(i, r)]| - 1
  {
    Remove(seq(|M|, i requires 0 <= i < |M| => Remove(M[i], c)), r)
  }

  /** Index i of a sequence from which index k was deleted. */
  function Skip(i: nat, k: nat): nat {
    if i < k then i else i + 1
  }

  lemma ReducedEntry<T>(M: seq<seq<T>>, R: nat, C: nat, r: nat, c: nat)
    requires IsMatrix(M, R, C) && r < R && c < C
    ensures IsMatrix(Reduced(M, r, c), R - 1, C - 1)
    ensures forall i, j :: 0 <= i < R - 1 && 0 <= j < C - 1 ==>
              Reduced(M, r, c)[i][j] == M[Skip(i, r)][Skip(j, c)]
  {
  }

  /** The rows of M laid end to end, as contiguous row storage holds them. */
  function Flatten<T>(M: seq<seq<T>>): seq<T>
    decreases |M|
  {
    if |M| == 0 then [] else Flatten(M[..|M| - 1]) + M[|M| - 1]
  }

  /** Reduced as written: `s` never advances and `t` never resets, so the
      k-th kept entry is written at offset k past the start of row 0. The
      rows of the minor are contiguous, so `written` is the storage of the
      whole minor; the method returns it next to the minor those offsets
      spell out in rows of C - 1. */
  method ReducedAsWritten<T>(M: seq<seq<T>>, R: nat, C: nat, r: nat, c: nat)
    returns (written: seq<T>)
    requires IsMatrix(M, R, C) && r < R && c < C
    ensures written == Flatten(Reduced(M, r, c))
    ensures |written| == (R - 1) * (C - 1)
  {
    ghost var minor := Reduced(M, r, c);
    ghost var k := 0;
    written := [];
    for i := 0 to R
      invariant k == if i > r then i - 1 else i
      invariant written == Flatten(minor[..k])
    {
      if i != r {
        ReducedStep(M, r, c, i, k);
        written := WriteKept(written, M[i], c);
        k := k + 1;
      }
    }
    assert minor[..R - 1] == minor;
    ReducedStorageSize(M, R, C, r, c);
  }

  lemma ReducedStorageSize<T>(M: seq<seq<T>>, R: nat, C: nat, r: nat, c: nat)
    requires IsMatrix(M, R, C) && r < R && c < C
    ensures |Flatten(Reduced(M, r, c))| == (R - 1) * (C - 1)
  {
    ReducedEntry(M, R, C, r, c);
    FlattenLength(Reduced(M, r, c), R - 1, C - 1);
  }

  /** Appending the kept entries of row i (i != r) extends the storage of
      the first k rows of the minor by its row k. */
  lemma ReducedStep<T>(M: seq<seq<T>>, r: nat, c: nat, i: nat, k: nat)
    requires r < |M| && forall j :: 0 <= j < |M| ==> c < |M[j]|
    requires i < |M| && i != r && k == (if i > r then i - 1 else i)
    ensures k + 1 <= |Reduced(M, r, c)|
    ensures Flatten(Reduced(M, r, c)[..k + 1]) == Flatten(Reduced(M, r, c)[..k]) + Remove(M[i], c)
  {
    ReducedRow(M, r, c, k);
    FlattenSnoc(Reduced(M, r, c), k);
  }

  /** The inner loop of Reduced: every entry of the row but the one in
      column c, written at the next offset. */
  method WriteKept<T>(written: seq<T>, row: seq<T>, c: nat) returns (w: seq<T>)
    requires c < |row|
    ensures w == written + Remove(row, c)
  {
    w := written;
    for j := 0 to |row|
      invariant w == written + Remove(row, c)[..if j > c then j - 1 else j]
    {
      if j == c {
        continue;
      }
      assert Remove(row, c)[if j > c then j - 1 else j] == row[j];
      w := w + [row[j]];
    }
    assert Remove(row, c)[..|row| - 1] == Remove(row, c);
  }

  /** Row i of the minor is row Skip(i, r) of M without its column c. */
  lemma ReducedRow<T>(M: seq<seq<T>>, r: nat, c: nat, i: nat)
    requires r < |M| && forall k :: 0 <= k < |M| ==> c < |M[k]|
    requires i < |M| - 1
    ensures Reduced(M, r, c)[i] == Remove(M[Skip(i, r)], c)
  {
  }

  lemma FlattenSnoc<T>(M: seq<seq<T>>, k: nat)
    requires k < |M|
    ensures Flatten(M[..k + 1]) == Flatten(M[..k]) + M[k]
  {
    assert M[..k + 1][..k] == M[..k];
  }

  lemma {:induction false} FlattenLength<T>(M: seq<seq<T>>, R: nat, C: nat)
    requires IsMatrix(M, R, C)
    ensures |Flatten(M)| == R * C
    decreases R
  {
    if R > 0 {
      FlattenLength(M[..R - 1], R - 1, C);
    }
  }

  /** Entry (i, j) sits at offset i * C + j of the row-major storage. */
  lemma {:induction false} FlattenEntry<T>(M: seq<seq<T>>, R: nat, C: nat, i: nat, j: nat)
    requires IsMatrix(M, R, C) && i < R && j < C
    ensures i * C + j < |Flatten(M)|
    ensures Flatten(M)[i * C + j] == M[i][j]
    decreases R
  {
    FlattenLength(M, R, C);
    FlattenLength(M[..R - 1], R - 1, C);
    if i < R - 1 {
      FlattenEntry(M[..R - 1], R - 1, C, i, j);
      OffsetBelow(i, j, R - 1, C);
    } else {
      assert (R - 1) * C + j == |Flatten(M[..R - 1])| + j;
    }
  }

  lemma OffsetBelow(i: nat, j: nat, R: nat, C: nat)
    requires i < R && j < C
    ensures i * C + j < R * C
  {
    assert (i + 1) * C <= R * C;
  }

  /** `+` (and `+=` row by row). */
  function Add(A: Mat, B: Mat): Mat
    requires |A| == |B| && forall i :: 0 <= i < |A| ==> |A[i]| == |B[i]|
  {
    seq(|A|, i requires 0 <= i < |A| => V.Add(A[i], B[i]))
  }

  /** `-` as written: each row goes through the vector `-=`, which assigns. */
  function SubAsWritten(A: Mat, B: Mat): Mat
    requires |A| == |B| && forall i :: 0 <= i < |A| ==> |A[i]| == |B[i]|
  {
    seq(|A|, i requires 0 <= i < |A| => V.SubAsWritten(A[i], B[i]))
  }

  /** `-` as evidently intended. */
  function Sub(A: Mat, B: Mat): Mat
    requires |A| == |B| && forall i :: 0 <= i < |A| ==> |A[i]| == |B[i]|
  {
    seq(|A|, i requires 0 <= i < |A| => V.Sub(A[i], B[i]))
  }

  /** `*` by a scalar (and `*=`). */
  function Scale(A: Mat, r: int): Mat {
    seq(|A|, i requires 0 <= i < |A| => V.Scale(A[i], r))
  }

  lemma AddEntries(A: Mat, B: Mat, R: nat, C: nat)
    requires IsMatrix(A, R, C) && IsMatrix(B, R, C)
    ensures IsMatrix(Add(A, B), R, C)
    ensures forall i, j :: 0 <= i < R && 0 <= j < C ==> Add(A, B)[i][j] == A[i][j] + B[i][j]
    ensures Add(A, B) == Add(B, A)
  {
    forall i | 0 <= i < R
      ensures Add(A, B)[i] == Add(B, A)[i]
    {
      V.AddCommutes(A[i], B[i]);
    }
  }

  lemma SubUndoesAdd(A: Mat, B: Mat, R: nat, C: nat)
    requires IsMatrix(A, R, C) && IsMatrix(B, R, C)
    ensures Sub(Add(A, B), B) == A
  {
    forall i | 0 <= i < R
      ensures Sub(Add(A, B), B)[i] == A[i]
    {
      V.SubUndoesAdd(A[i], B[i]);
    }
  }

  lemma SubSelfIsZero(A: Mat, R: nat, C: nat)
    requires IsMatrix(A, R, C)
    ensures Sub(A, A) == Zero(R, C)
  {
    forall i | 0 <= i < R
      ensures Sub(A, A)[i] == Zero(R, C)[i]
    {
      assert forall j :: 0 <= j < C ==> Sub(A, A)[i][j] == 0 == Zero(R, C)[i][j];
    }
  }

  /** As written, A - B is B, so A - A is A rather than Zero. */
  lemma SubAsWrittenIsArgument(A: Mat, B: Mat, R: nat, C: nat)
    requires IsMatrix(A, R, C) && IsMatrix(B, R, C)
    ensures SubAsWritten(A, B) == B
  {
    forall i | 0 <= i < R
      ensures SubAsWritten(A, B)[i] == B[i]
    {
      V.SubAsWrittenIsArgument(A[i], B[i]);
    }
  }

  lemma ScaleEntries(A: Mat, r: int, R: nat, C: nat)
    requires IsMatrix(A, R, C)
    ensures IsMatrix(Scale(A, r), R, C)
    ensures forall i, j :: 0 <= i < R && 0 <= j < C ==> Scale(A, r)[i][j] == A[i][j] * r
  {
  }

  /** `M *= M[k][j]` as written: the scalar is a reference into M, read
      afresh for each row, and each row's vector `*=` takes its own copy.
      Rows up to k are scaled by a = M[k][j]; row k then holds a · a at
      column j, so every later row is scaled by a · a. */
  method ScaleByEntryAsWritten(M: Mat, k: nat, j: nat) returns (A: Mat)
    requires k < |M| && j < |M[k]|
    ensures |A| == |M|
    ensures forall i :: 0 <= i <= k ==> A[i] == V.Scale(M[i], M[k][j])
    ensures forall i :: k < i < |M| ==> A[i] == V.Scale(M[i], M[k][j] * M[k][j])
  {
    var a := M[k][j];
    A := M;
    for i := 0 to |M|
      invariant |A| == |M|
      invariant forall t :: 0 <= t < i && t <= k ==> A[t] == V.Scale(M[t], a)
      invariant forall t :: k < t < i ==> A[t] == V.Scale(M[t], a * a)
      invariant forall t :: i <= t < |M| ==> A[t] == M[t]
      invariant A[k][j] == if i > k then a * a else a
    {
      A := A[i := V.Scale(A[i], A[k][j])];
    }
  }

  /** For [[-1, 0], [0, 1]], `M *= M[0][0]` as written leaves the identity:
      row 0 turns the entry into 1, and row 1 is then scaled by 1. */
  method ScaleByEntryCounterexample() returns (asWritten: Mat, scaled: Mat)
    ensures asWritten == [[1, 0], [0, 1]]
    ensures scaled == [[1, 0], [0, -1]]
    ensures asWritten != scaled
  {
    var M := [[-1, 0], [0, 1]];
    asWritten := ScaleByEntryAsWritten(M, 0, 0);
    ScaleEntries(M, M[0][0], 2, 2);
    scaled := Scale(M, M[0][0]);
    EqualTwoByTwo(asWritten, [[1, 0], [0, 1]]);
    EqualTwoByTwo(scaled, [[1, 0], [0, -1]]);
  }

  /** `M * u`: element i is row i dotted with u. */
  function Apply(M: Mat, u: V.Vec): V.Vec
    requires forall i :: 0 <= i < |M| ==> |M[i]| == |u|
  {
    seq(|M|, i requires 0 <= i < |M| => V.Dot(M[i], u))
  }

  lemma ApplyIdentity(u: V.Vec)
    ensures Apply(Identity(|u|), u) == u
  {
    forall i | 0 <= i < |u|
      ensures Apply(Identity(|u|), u)[i] == u[i]
    {
      assert Identity(|u|)[i] == seq(|u|, k => if k == i then 1 else 0);
      V.DotUnit(|u|, i, u);
    }
  }

  /** The sum of M[0][0] .. M[n-1][n-1]. */
  function DiagonalSum(M: Mat, n: nat): int
    requires n <= |M| && forall i :: 0 <= i < n ==> n <= |M[i]|
  {
    if n == 0 then 0 else DiagonalSum(M, n - 1) + M[n - 1][n - 1]
  }

  function Trace(M: Mat): int
    requires IsMatrix(M, |M|, |M|)
  {
    DiagonalSum(M, |M|)
  }

  lemma {:induction false} DiagonalSumTranspose(M: Mat, N: nat, n: nat)
    requires IsMatrix(M, N, N) && n <= N
    ensures DiagonalSum(Transpose(M, N), n) == DiagonalSum(M, n)
  {
    TransposeShape(M, N, N);
    if n > 0 {
      DiagonalSumTranspose(M, N, n - 1);
    }
  }

  lemma TraceTranspose(M: Mat, N: nat)
    requires IsMatrix(M, N, N)
    ensures IsMatrix(Transpose(M, N), N, N)
    ensures Trace(Transpose(M, N)) == Trace(M)
  {
    TransposeShape(M, N, N);
    DiagonalSumTranspose(M, N, N);
  }

  lemma {:induction false} DiagonalSumIdentity(N: nat, n: nat)
    requires n <= N
    ensures DiagonalSum(Identity(N), n) == n
  {
    if n > 0 {
      DiagonalSumIdentity(N, n - 1);
    }
  }

  lemma TraceIdentity(N: nat)
    ensures Trace(Identity(N)) == N
  {
    DiagonalSumIdentity(N, N);
  }

  /** `Transform(A, B)`: entry (i, j) is row i of A dotted with row j of B's transpose. */
  function Transform(A: Mat, B: Mat, C: nat): Mat
    requires forall i :: 0 <= i < |A| ==> |A[i]| == |B|
    requires IsMatrix(B, |B|, C)
  {
    var Bt := Transpose(B, C);
    seq(|A|, i requires 0 <= i < |A| =>
      seq(C, j requires 0 <= j < C => V.Dot(A[i], Bt[j])))
  }

  /** A B has the shape R x C, and entry (i, j) is row i of A against column j of B. */
  lemma TransformEntry(A: Mat, B: Mat, R: nat, K: nat, C: nat)
    requires IsMatrix(A, R, K) && IsMatrix(B, K, C)
    ensures IsMatrix(Transform(A, B, C), R, C)
    ensures forall i, j :: 0 <= i < R && 0 <= j < C ==>
              Transform(A, B, C)[i][j] == V.Dot(Row(A, i), Column(B, j))
  {
    RowColumnEntries(B, K, C);
  }

  lemma TransformIdentityLeft(B: Mat, K: nat, C: nat)
    requires IsMatrix(B, K, C)
    ensures Transform(Identity(K), B, C) == B
  {
    TransformEntry(Identity(K), B, K, K, C);
    forall i, j | 0 <= i < K && 0 <= j < C
      ensures Transform(Identity(K), B, C)[i][j] == B[i][j]
    {
      assert Row(Identity(K), i) == seq(K, k => if k == i then 1 else 0);
      V.DotUnit(K, i, Column(B, j));
    }
    EqualEntries(Transform(Identity(K), B, C), B, K, C);
  }

  lemma EqualEntries<T>(M: seq<seq<T>>, N: seq<seq<T>>, R: nat, C: nat)
    requires IsMatrix(M, R, C) && IsMatrix(N, R, C)
    requires forall i, j :: 0 <= i < R && 0 <= j < C ==> M[i][j] == N[i][j]
    ensures M == N
  {
    forall i | 0 <= i < R
      ensures M[i] == N[i]
    {
    }
  }

  /** Two 2 x 2 matrices with the same four entries are equal. */
  lemma EqualTwoByTwo<T>(M: seq<seq<T>>, N: seq<seq<T>>)
    requires IsMatrix(M, 2, 2) && IsMatrix(N, 2, 2)
    requires M[0][0] == N[0][0] && M[0][1] == N[0][1]
    requires M[1][0] == N[1][0] && M[1][1] == N[1][1]
    ensures M == N
  {
    assert M[0] == N[0] && M[1] == N[1];
  }

  lemma TransformIdentityRight(A: Mat, R: nat, K: nat)
    requires IsMatrix(A, R, K)
    ensures Transform(A, Identity(K), K) == A
  {
    TransformEntry(A, Identity(K), R, K, K);
    forall i, j | 0 <= i < R && 0 <= j < K
      ensures Transform(A, Identity(K), K)[i][j] == A[i][j]
    {
      assert Column(Identity(K), j) == seq(K, k => if k == j then 1 else 0);
      V.DotSymmetric(Row(A, i), Column(Identity(K), j));
      V.DotUnit(K, j, Row(A, i));
    }
    EqualEntries(Transform(A, Identity(K), K), A, R, K);
  }

  /** (A B)^T == B^T A^T. */
  lemma TransposeOfTransform(A: Mat, B: Mat, R: nat, K: nat, C: nat)
    requires IsMatrix(A, R, K) && IsMatrix(B, K, C)
    ensures IsMatrix(Transform(A, B, C), R, C)
    ensures Transpose(Transform(A, B, C), C)
            == Transform(Transpose(B, C), Transpose(A, K), R)
  {
    TransformEntry(A, B, R, K, C);
    TransposeShape(A, R, K);
    TransposeShape(B, K, C);
    var Bt := Transpose(B, C);
    var At := Transpose(A, K);
    TransformEntry(Bt, At, C, K, R);
    TransposeShape(Transform(A, B, C), R, C);
    forall j, i | 0 <= j < C && 0 <= i < R
      ensures Transpose(Transform(A, B, C), C)[j][i] == Transform(Bt, At, R)[j][i]
    {
      RowColumnEntries(At, K, R);
      TransposeInvolution(A, R, K);
      assert Column(At, i) == Row(A, i);
      assert Row(Bt, j) == Column(B, j);
      V.DotSymmetric(Row(A, i), Column(B, j));
    }
    EqualEntries(Transpose(Transform(A, B, C), C), Transform(Bt, At, R), C, R);
  }
}

=== FILE: scalar.dfy ===
/**
  The scalar support layer of the library: the numeric kinds the templates
  are instantiated with, the tolerance helpers Epsilon, Equals and
  AutoCorrect, and the integer branches of Abs, Max, Min, Pow and
  DoubleFactorial.
 */
module Scalar {
  import opened Failures

  /** The C++ arithmetic types the library can be instantiated with: the
      eight that its `is_same` kind tests name (int, char, short, long,
      long long, float, double, long double), plus signed char and the
      unsigned counterpart of each integral kind. */
  datatype Kind =
    | Float | Double | LongDouble
    | Char | SignedChar | UnsignedChar
    | Short | UnsignedShort
    | Int | UnsignedInt
    | Long | UnsignedLong
    | LongLong | UnsignedLongLong

  /** IsSigned lists exactly int, char, short, long and long long; int8_t
      (signed char) is not among them. */
  predicate IsSigned(k: Kind) {
    k == Int || k == Char || k == Short || k == Long || k == LongLong
  }

  predicate IsFloatingPoint(k: Kind) {
    k == Float || k == Double || k == LongDouble
  }

  predicate IsUnsigned(k: Kind) {
    k == UnsignedChar || k == UnsignedShort || k == UnsignedInt
    || k == UnsignedLong || k == UnsignedLongLong
  }

  /** Number of values of an integral kind (MSVC data model: long is 32 bits). */
  function Modulus(k: Kind): (m: nat)
    requires !IsFloatingPoint(k)
    ensures m >= 256 && m % 2 == 0
  {
    match k
    case Char | SignedChar | UnsignedChar => 0x100
    case Short | UnsignedShort => 0x1_0000
    case Int | UnsignedInt | Long | UnsignedLong => 0x1_0000_0000
    case LongLong | UnsignedLongLong => 0x1_0000_0000_0000_0000
  }

  /** Largest value of an unsigned kind. */
  function MaxUnsigned(k: Kind): nat
    requires IsUnsigned(k)
  {
    Modulus(k) - 1
  }

  /** The values a variable of kind `k` can hold (every integer for the
      floating kinds, whose values are not modelled bit for bit). */
  predicate InRange(k: Kind, x: int) {
    if IsFloatingPoint(k) then true
    else if IsUnsigned(k) then 0 <= x < Modulus(k)
    else -(Modulus(k) / 2) <= x < Modulus(k) / 2
  }

  /** The tolerance 1e-15 for the three floating kinds, 0 otherwise. */
  function Epsilon(k: Kind): (e: real)
    ensures e >= 0.0
    ensures e == 0.0 <==> !IsFloatingPoint(k)
  {
    if IsFloatingPoint(k) then 0.000000000000001 else 0.0
  }

  /** Abs instantiated at a real kind. */
  function AbsReal(a: real): real {
    if a < 0.0 then -a else a
  }

  /** Tolerance applies only when the kind is exactly `float`; every other
      kind, `double` included, compares exactly. */
  function Equals(k: Kind, a: real, b: real): bool {
    if k == Float then AbsReal(a - b) <= Epsilon(k) else a == b
  }

  lemma EqualsExactUnlessFloat(k: Kind, a: real, b: real)
    requires k != Float
    ensures Equals(k, a, b) <==> a == b
  {
  }

  lemma EqualsFloatTolerance(a: real, b: real)
    ensures Equals(Float, a, b) <==> -0.000000000000001 <= a - b <= 0.000000000000001
  {
  }

  lemma EqualsSymmetric(k: Kind, a: real, b: real)
    ensures Equals(k, a, b) == Equals(k, b, a)
  {
  }

  function Floor(r: real): real {
    r.Floor as real
  }

  function Ceil(r: real): real {
    if r.Floor as real == r then r else (r.Floor + 1) as real
  }

  /** Snaps a floating value to a neighbouring integer when it is within
      Epsilon of it, then (for signed and floating kinds) to zero when it is
      within Epsilon of zero. */
  function AutoCorrect(k: Kind, r: real): real {
    var snapped :=
      if IsFloatingPoint(k) then
        if AbsReal(r - Floor(r)) <= Epsilon(k) then Floor(r)
        else if AbsReal(r - Ceil(r)) <= Epsilon(k) then Ceil(r)
        else r
      else r;
    if AbsReal(snapped - 0.0) <= Epsilon(k) && (IsSigned(k) || IsFloatingPoint(k)) then 0.0
    else snapped
  }

  /** For every integral kind AutoCorrect hands back its argument. */
  lemma AutoCorrectIntegral(k: Kind, r: real)
    requires !IsFloatingPoint(k)
    ensures AutoCorrect(k, r) == r
  {
  }

  /** AutoCorrect moves a value by at most Epsilon, and what it returns is
      the value itself, zero, or a whole number. */
  lemma AutoCorrectNearby(k: Kind, r: real)
    ensures AbsReal(AutoCorrect(k, r) - r) <= Epsilon(k)
    ensures var c := AutoCorrect(k, r); c == r || c == c.Floor as real
  {
    if IsFloatingPoint(k) {
      var e := Epsilon(k);
      var snapped :=
        if AbsReal(r - Floor(r)) <= e then Floor(r)
        else if AbsReal(r - Ceil(r)) <= e then Ceil(r)
        else r;
      assert AbsReal(snapped - r) <= e;
      if AbsReal(snapped) <= e && snapped != r {
        // snapped is a whole number within e < 1 of zero, so it is zero
        assert snapped == Floor(r) || snapped == Ceil(r);
        assert snapped == snapped.Floor as real;
        assert snapped == 0.0;
      }
    }
  }

  /** Abs instantiated at an integer kind. */
  function Abs(a: int): (r: int)
    ensures r >= 0
    ensures r == a || r == -a
  {
    if a < 0 then -a else a
  }

  lemma AbsNegate(a: int)
    ensures Abs(-a) == Abs(a)
  {
  }

  function Max(a: int, b: int): (r: int)
    ensures r >= a && r >= b
    ensures r == a || r == b
  {
    if a > b then a else b
  }

  function Min(a: int, b: int): (r: int)
    ensures r <= a && r <= b
    ensures r == a || r == b
  {
    if a < b then a else b
  }

  /** Integer `/` of C++: the quotient truncated toward zero. */
  function Quot(a: int, b: int): int
    requires b != 0
  {
    var q := Abs(a) / Abs(b);
    if (a < 0) != (b < 0) then -q else q
  }

  lemma DivCancel(x: nat, d: nat)
    requires d > 0
    ensures x * d / d == x
  {
    var q := x * d / d;
    var r := x * d % d;
    assert x * d == q * d + r && 0 <= r < d;
    assert (x - q) * d == r;
    if x - q >= 1 {
      assert false;
    } else if x - q <= -1 {
      assert false;
    }
  }

  /** Dividing a multiple of b by b truncates nothing. */
  lemma QuotExact(a: int, b: int)
    requires b != 0
    ensures Quot(a * b, b) == a
  {
    assert Abs(a * b) == Abs(a) * Abs(b) by {
      if a < 0 && b < 0 {
        assert a * b == (-a) * (-b);
      } else if a < 0 {
        assert -(a * b) == (-a) * b;
      } else if b < 0 {
        assert -(a * b) == a * (-b);
      }
    }
    DivCancel(Abs(a), Abs(b));
    if a != 0 {
      assert (a * b < 0) <==> ((a < 0) != (b < 0)) by {
        if a > 0 && b > 0 { assert a * b > 0; }
        else if a < 0 && b < 0 { assert (-a) * (-b) > 0; }
        else if a > 0 { assert a * (-b) > 0; }
        else { assert (-a) * b > 0; }
      }
    }
  }

  /** When b divides a, the truncating quotient is exact. */
  lemma QuotOfMultiple(a: int, b: int)
    requires b != 0 && a % b == 0
    ensures Quot(a, b) * b == a
  {
    var k := a / b;
    assert a == k * b;
    QuotExact(k, b);
  }

  /** x to the power n, the reference for the integer branch of Pow. */
  function Power(x: int, n: nat): int {
    if n == 0 then 1 else Power(x, n - 1) * x
  }

  lemma {:induction false} PowerAdd(x: int, a: nat, b: nat)
    ensures Power(x, a + b) == Power(x, a) * Power(x, b)
  {
    if b > 0 {
      PowerAdd(x, a, b - 1);
      calc {
        Power(x, a + b);
        Power(x, a + b - 1) * x;
        Power(x, a) * Power(x, b - 1) * x;
        { assert Power(x, b) == Power(x, b - 1) * x; }
        Power(x, a) * Power(x, b);
      }
    }
  }

  /** The integer branch of Pow: multiply 1 by x, p times. */
  method Pow(x: int, p: int) returns (X: int)
    ensures p <= 0 ==> X == 1
    ensures p >= 0 ==> X == Power(x, p)
  {
    X := 1;
    var i := 0;
    while i < p
      invariant 0 <= i
      invariant i <= p || i == 0
      invariant X == Power(x, i)
    {
      X := X * x;
      i := i + 1;
    }
  }

  /** n!!, with the value 1 for every n <= 1, negative n included. */
  function DoubleFact(n: int): int
    decreases n
  {
    if n <= 1 then 1 else n * DoubleFact(n - 2)
  }

  lemma DoubleFactStep(f: int, i: int)
    requires i > 0
    ensures f * i * DoubleFact(i - 2) == f * DoubleFact(i)
  {
    assert DoubleFact(i) == i * DoubleFact(i - 2);
  }

  /** DoubleFactorial with its countdown done in exact integers: for signed
      kinds this is the loop as written; for unsigned kinds it is the loop
      the source evidently intends (see DoubleFactorialWrapCycles). */
  method DoubleFactorial(k: Kind, n: int) returns (r: Result<int>)
    requires InRange(k, n)
    ensures r.Failure? <==> IsFloatingPoint(k)
    ensures r.Failure? ==> r.error == FloatingFactorial
    ensures r.Success? ==> r.value == DoubleFact(n)
  {
    if IsFloatingPoint(k) {
      return Failure(FloatingFactorial);
    }
    var factorial := 1;
    var i := n;
    while i > 0
      invariant i <= n
      invariant factorial * DoubleFact(i) == DoubleFact(n)
      decreases i
    {
      DoubleFactStep(factorial, i);
      factorial := factorial * i;
      i := i - 2;
    }
    r := Success(factorial);
  }

  /** `i -= 2` evaluated in kind `k`: an unsigned kind wraps below zero. */
  function CountDown(k: Kind, i: int): int
    requires !IsFloatingPoint(k) && InRange(k, i)
  {
    var d := i - 2;
    if IsUnsigned(k) && d < 0 then d + Modulus(k) else d
  }

  /** The loop guard of DoubleFactorial as written. */
  predicate KeepsCounting(i: int, n: int) {
    i > 0 && i <= n
  }

  /** Below the maximum of an unsigned kind the wrapping countdown leaves the
      loop exactly when the exact one does, so the two loops agree there. */
  lemma CountDownAgrees(k: Kind, n: int, i: int)
    requires IsUnsigned(k) && InRange(k, n) && n < MaxUnsigned(k)
    requires KeepsCounting(i, n)
    ensures InRange(k, i)
    ensures KeepsCounting(CountDown(k, i), n) <==> i - 2 > 0
    ensures KeepsCounting(CountDown(k, i), n) ==> CountDown(k, i) == i - 2
  {
    if i < 2 {
      assert CountDown(k, i) == Modulus(k) - 1;
    }
  }

  /** The loop of DoubleFactorial as written, at an unsigned kind: the
      countdown wraps below zero and the guard `i > 0 && i <= n` ends it.
      Below the kind's maximum it computes n!!. */
  method DoubleFactorialAsWritten(k: Kind, n: int) returns (factorial: int)
    requires IsUnsigned(k) && InRange(k, n) && n < MaxUnsigned(k)
    ensures factorial == DoubleFact(n)
  {
    factorial := 1;
    var i := n;
    while KeepsCounting(i, n)
      invariant factorial * (if KeepsCounting(i, n) then DoubleFact(i) else 1) == DoubleFact(n)
      decreases if KeepsCounting(i, n) then i else 0
    {
      CountDownAgrees(k, n, i);
      DoubleFactStep(factorial, i);
      factorial := factorial * i;
      i := CountDown(k, i);
    }
  }

  /** For n the maximum of an unsigned kind (255 for uint8_t), n is odd and
      the odd values in (0, n] are closed under the wrapping countdown
      (1 - 2 wraps to n itself), so the loop as written never exits. */
  lemma DoubleFactorialWrapCycles(k: Kind, n: int)
    requires IsUnsigned(k) && n == MaxUnsigned(k)
    ensures KeepsCounting(n, n) && n % 2 == 1
    ensures CountDown(k, 1) == n
    ensures forall i :: KeepsCounting(i, n) && i % 2 == 1 ==>
              InRange(k, i) && KeepsCounting(CountDown(k, i), n) && CountDown(k, i) % 2 == 1
  {
    forall i | KeepsCounting(i, n) && i % 2 == 1
      ensures InRange(k, i) && KeepsCounting(CountDown(k, i), n) && CountDown(k, i) % 2 == 1
    {
      if i == 1 {
        assert CountDown(k, i) == n;
      } else {
        assert CountDown(k, i) == i - 2;
      }
    }
  }
}

=== FILE: vector.dfy ===
/**
  Fixed-size vectors: a vector of `size` elements is a sequence of that
  length, with every binary operation defined between vectors of one size.
  Compound assignments are modelled as methods that rewrite the receiver's
  elements one index at a time, as the source loops do; the value operators
  `+`, `-`, `*`, `/` copy the receiver and so are pure functions.
 */
module Vector {
  import opened Scalar

  type Vec = seq<int>

  /** The element kind of the model: a signed C++ `int`. */
  const Elem: Kind := Int

  function Zero(size: nat): Vec {
    seq(size, i => 0)
  }

  /** The default constructor: whatever `storage` held, each slot is set to 0. */
  method Construct(storage: Vec) returns (e: Vec)
    ensures |e| == |storage|
    ensures forall i :: 0 <= i < |e| ==> e[i] == 0
  {
    e := storage;
    for i := 0 to |e|
      invariant |e| == |storage|
      invariant forall j :: 0 <= j < i ==> e[j] == 0
    {
      e := e[i := 0];
    }
  }

  /** `==`: compare index by index, stopping at the first difference. */
  method Equal(e: Vec, u: Vec) returns (b: bool)
    requires |e| == |u|
    ensures b <==> e == u
  {
    for i := 0 to |e|
      invariant forall j :: 0 <= j < i ==> e[j] == u[j]
    {
      if e[i] != u[i] {
        return false;
      }
    }
    return true;
  }

  method NotEqual(e: Vec, u: Vec) returns (b: bool)
    requires |e| == |u|
    ensures b <==> e != u
  {
    var same := Equal(e, u);
    b := !same;
  }

  function Add(v: Vec, u: Vec): Vec
    requires |v| == |u|
  {
    seq(|v|, i requires 0 <= i < |v| => v[i] + u[i])
  }

  /** `-` as written: `-=` assigns u[i] to every element instead of subtracting. */
  function SubAsWritten(v: Vec, u: Vec): Vec
    requires |v| == |u|
  {
    seq(|v|, i requires 0 <= i < |v| => u[i])
  }

  /** `-` as evidently intended. */
  function Sub(v: Vec, u: Vec): Vec
    requires |v| == |u|
  {
    seq(|v|, i requires 0 <= i < |v| => v[i] - u[i])
  }

  function Scale(v: Vec, r: int): Vec {
    seq(|v|, i requires 0 <= i < |v| => v[i] * r)
  }

  /** `/` by a scalar: C++ integer division truncates toward zero. */
  function Div(v: Vec, r: int): Vec
    requires r != 0
  {
    seq(|v|, i requires 0 <= i < |v| => Quot(v[i], r))
  }

  /** `+=`: e[i] += u[i] for each i. */
  method AddAssign(v: Vec, u: Vec) returns (e: Vec)
    requires |v| == |u|
    ensures |e| == |v|
    ensures forall i :: 0 <= i < |v| ==> e[i] == v[i] + u[i]
    ensures e == Add(v, u)
  {
    e := v;
    for i := 0 to |v|
      invariant |e| == |v|
      invariant forall j :: 0 <= j < i ==> e[j] == v[j] + u[j]
      invariant forall j :: i <= j < |v| ==> e[j] == v[j]
    {
      e := e[i := e[i] + u[i]];
    }
  }

  /** `-=` as written: e[i] = u[i] for each i, so the receiver becomes u. */
  method SubAssignAsWritten(v: Vec, u: Vec) returns (e: Vec)
    requires |v| == |u|
    ensures e == u
    ensures e == SubAsWritten(v, u)
  {
    e := v;
    for i := 0 to |v|
      invariant |e| == |v|
      invariant forall j :: 0 <= j < i ==> e[j] == u[j]
    {
      e := e[i := u[i]];
    }
  }

  /** `-=` as evidently intended: e[i] -= u[i] for each i. */
  method SubAssign(v: Vec, u: Vec) returns (e: Vec)
    requires |v| == |u|
    ensures |e| == |v|
    ensures forall i :: 0 <= i < |v| ==> e[i] == v[i] - u[i]
    ensures e == Sub(v, u)
  {
    e := v;
    for i := 0 to |v|
      invariant |e| == |v|
      invariant forall j :: 0 <= j < i ==> e[j] == v[j] - u[j]
      invariant forall j :: i <= j < |v| ==> e[j] == v[j]
    {
      e := e[i := e[i] - u[i]];
    }
  }

  /** `*=` by a scalar: e[i] *= r for each i. */
  method ScaleAssign(v: Vec, r: int) returns (e: Vec)
    ensures |e| == |v|
    ensures forall i :: 0 <= i < |v| ==> e[i] == v[i] * r
    ensures e == Scale(v, r)
  {
    e := v;
    for i := 0 to |v|
      invariant |e| == |v|
      invariant forall j :: 0 <= j < i ==> e[j] == v[j] * r
      invariant forall j :: i <= j < |v| ==> e[j] == v[j]
    {
      e := e[i := e[i] * r];
    }
  }

  /** `/=` by a scalar: e[i] /= r for each i. */
  method DivAssign(v: Vec, r: int) returns (e: Vec)
    requires r != 0
    ensures |e| == |v|
    ensures forall i :: 0 <= i < |v| ==> e[i] == Quot(v[i], r)
    ensures e == Div(v, r)
  {
    e := v;
    for i := 0 to |v|
      invariant |e| == |v|
      invariant forall j :: 0 <= j < i ==> e[j] == Quot(v[j], r)
      invariant forall j :: i <= j < |v| ==> e[j] == v[j]
    {
      e := e[i := Quot(e[i], r)];
    }
  }

  /** The dot product, summed from index 0 upwards. */
  function Dot(u: Vec, v: Vec): int
    requires |u| == |v|
    decreases |u|
  {
    if |u| == 0 then 0
    else Dot(u[..|u| - 1], v[..|u| - 1]) + u[|u| - 1] * v[|u| - 1]
  }

  /** `operator*` between vectors: sum += u[i] * e[i]. `Dot` returns it unchanged. */
  method DotProduct(e: Vec, u: Vec) returns (sum: int)
    requires |e| == |u|
    ensures sum == Dot(e, u)
  {
    sum := 0;
    for i := 0 to |e|
      invariant sum == Dot(e[..i], u[..i])
    {
      assert e[..i + 1][..i] == e[..i] && u[..i + 1][..i] == u[..i];
      sum := sum + u[i] * e[i];
    }
    assert e[..|e|] == e && u[..|u|] == u;
  }

  lemma {:induction false} DotSymmetric(u: Vec, v: Vec)
    requires |u| == |v|
    ensures Dot(u, v) == Dot(v, u)
    decreases |u|
  {
    if |u| > 0 {
      DotSymmetric(u[..|u| - 1], v[..|u| - 1]);
    }
  }

  lemma {:induction false} DotSelfNonNegative(u: Vec)
    ensures Dot(u, u) >= 0
    decreases |u|
  {
    if |u| > 0 {
      DotSelfNonNegative(u[..|u| - 1]);
    }
  }

  /** Dot against the i-th unit vector picks out element i. */
  lemma {:induction false} DotUnit(n: nat, i: nat, v: Vec)
    requires i < n == |v|
    ensures Dot(seq(n, k => if k == i then 1 else 0), v) == v[i]
    decreases n
  {
    var e := seq(n, k => if k == i then 1 else 0);
    if i == n - 1 {
      DotZeroLeft(e[..n - 1], v[..n - 1]);
    } else {
      assert e[..n - 1] == seq(n - 1, k => if k == i then 1 else 0);
      DotUnit(n - 1, i, v[..n - 1]);
    }
  }

  lemma {:induction false} DotZeroLeft(z: Vec, v: Vec)
    requires |z| == |v|
    requires forall k :: 0 <= k < |z| ==> z[k] == 0
    ensures Dot(z, v) == 0
    decreases |z|
  {
    if |z| > 0 {
      DotZeroLeft(z[..|z| - 1], v[..|z| - 1]);
    }
  }

  lemma Dot2(u: Vec, v: Vec)
    requires |u| == |v| == 2
    ensures Dot(u, v) == u[0] * v[0] + u[1] * v[1]
  {
    assert u[..1][..0] == [] && v[..1][..0] == [];
    assert Dot(u[..1], v[..1]) == u[0] * v[0];
  }

  lemma Dot3(u: Vec, v: Vec)
    requires |u| == |v| == 3
    ensures Dot(u, v) == u[0] * v[0] + u[1] * v[1] + u[2] * v[2]
  {
    assert u[..2][..1] == u[..1] && v[..2][..1] == v[..1];
    assert u[..1][..0] == [] && v[..1][..0] == [];
    assert Dot(u[..1], v[..1]) == u[0] * v[0];
    assert Dot(u[..2], v[..2]) == u[0] * v[0] + u[1] * v[1];
  }

  lemma AddCommutes(v: Vec, u: Vec)
    requires |v| == |u|
    ensures Add(v, u) == Add(u, v)
  {
  }

  /** Subtracting what was added gives the receiver back. */
  lemma SubUndoesAdd(v: Vec, u: Vec)
    requires |v| == |u|
    ensures Sub(Add(v, u), u) == v
  {
  }

  lemma SubSelfIsZero(v: Vec)
    ensures Sub(v, v) == Zero(|v|)
  {
  }

  /** As written, v - u is u whatever v is; in particular v - v is v, not zero. */
  lemma SubAsWrittenIsArgument(v: Vec, u: Vec)
    requires |v| == |u|
    ensures SubAsWritten(v, u) == u
    ensures SubAsWritten(u, u) == u
  {
  }

  /** Concretely: <1, 2> - <1, 2> as written is <1, 2>. */
  lemma SubAsWrittenCounterexample()
    ensures SubAsWritten([1, 2], [1, 2]) != Zero(2)
    ensures Sub([1, 2], [1, 2]) == Zero(2)
  {
    assert SubAsWritten([1, 2], [1, 2])[0] == 1;
  }

  /** Dividing a scaled vector by the same non-zero scalar is exact. */
  lemma DivUndoesScale(v: Vec, r: int)
    requires r != 0
    ensures Div(Scale(v, r), r) == v
  {
    forall i | 0 <= i < |v|
      ensures Div(Scale(v, r), r)[i] == v[i]
    {
      QuotExact(v[i], r);
    }
  }

  /** The 3-D cross product, right-handed. */
  function Cross(A: Vec, B: Vec): Vec
    requires |A| == |B| == 3
  {
    [  (A[1] * B[2] - A[2] * B[1]),
      -(A[0] * B[2] - A[2] * B[0]),
       (A[0] * B[1] - A[1] * B[0])]
  }

  lemma CrossBasis()
    ensures Cross([1, 0, 0], [0, 1, 0]) == [0, 0, 1]
  {
  }

  lemma CrossAntiCommutes(A: Vec, B: Vec)
    requires |A| == |B| == 3
    ensures Cross(B, A) == Scale(Cross(A, B), -1)
  {
  }

  /** A x B is orthogonal to both A and B. */
  lemma CrossOrthogonal(A: Vec, B: Vec)
    requires |A| == |B| == 3
    ensures Dot(Cross(A, B), A) == 0
    ensures Dot(Cross(A, B), B) == 0
  {
    var C := Cross(A, B);
    Dot3(C, A);
    Dot3(C, B);
    TripleProductVanishes(A[0], A[1], A[2], B[0], B[1], B[2], C[0], C[1], C[2]);
  }

  lemma TripleProductVanishes(a0: int, a1: int, a2: int, b0: int, b1: int, b2: int,
                              c0: int, c1: int, c2: int)
    requires c0 == a1 * b2 - a2 * b1
    requires c1 == -(a0 * b2 - a2 * b0)
    requires c2 == a0 * b1 - a1 * b0
    ensures c0 * a0 + c1 * a1 + c2 * a2 == 0
    ensures c0 * b0 + c1 * b1 + c2 * b2 == 0
  {
  }

  /** Orthogonality, with the kind's Equals against zero. */
  function IsOrtho(u: Vec, v: Vec): (b: bool)
    requires |u| == |v|
    ensures b <==> Dot(u, v) == 0
  {
    EqualsExactUnlessFloat(Elem, Dot(u, v) as real, 0.0);
    Equals(Elem, Dot(u, v) as real, 0.0)
  }
}
